=== FILE: README.md ===
# Reference browser: decision rules and state machines

This project models the parts of the Yooho/loamen reference browser (an
Android browser built on an external browser-component library) that make
decisions of their own, and proves what they guarantee:

- **Search-engine provisioning and selection.**
  - `loadSearchEngines` inserts a fixed catalogue of eight custom engines when their ids are missing.
  - The radio list of engines is rebuilt as one row per engine.
  - A check event selects an engine only when it is genuine.
  - Restoring the defaults removes the custom engines and re-adds the hidden ones.
  - The engine registry belongs to the external library. It is modelled as the class `SearchStore.EngineStore`, with installed, hidden and available lists and a user-selected id, and with add, remove-custom and select operations.
- **The browser activity.**
  - The double-back-to-exit callback, with its 3000 ms window.
  - The first-run pick of a Baidu engine when the user has selected none.
  - The URL-opening routes: extra URL, `openToBrowser`, `onNewIntent` and `onNavigateToBrowser`.
- **The browser fragments.**
  - The ordered back-press and activity-result handler chains, with the reader view first in the browser fragment.
  - Automatic installation of a downloaded `.xpi` file.
  - The permission-result mapping.
  - The end of picture-in-picture: a back press through the fragment's own chain, then leaving full screen.
  - The add-ons sheet: which extensions it lists, in which order, and what selecting one does.
  - Where the add-on button leads.
  - The back/forward buttons, kept in step with the selected tab, and the home action.
- **The add-ons screen.** The install-in-progress flag, the overlay, and the success and error callbacks, as a step function with an invariant over whole runs, including the throw when a callback finds no view. Also the routing of item clicks.
- **The settings screen.** The language label and how it depends on the display locale, the current-locale fallback, the language dialog's choice, and what `setupPreferences` hides and removes, including its throw when the autofill preference is missing.

Clock readings (`now`), the selected-or-default engine id, the tab list's emptiness, the start-page URL (`navUrl`, a string resource whose value is not part of this model), the developer-mode preference, the autofill support flag and the default display locale are all parameters.

Calls into the browser library are recorded, not executed:
- `UseCases.calls` holds the loads and new tabs.
- `AddonsFragment.installRequests` holds the add-on installs.

Module layout, one file each:
- `wrappers.dfy`: `Option`.
- `seqs.dfy`: `Filter` and the first-match search, with their lemmas.
- `text.dfy`: prefixes, substrings, ASCII case folding.
- `search_store.dfy`: the engine registry.
- `search_engine_list.dfy`, `installed_search_engines.dfy`: the search-engine screens.
- `browser_activity.dfy`, `base_browser_fragment.dfy`, `browser_fragment.dfy`.
- `addons.dfy`, `settings.dfy`.

## Model

| member | source | states |
|---|---|---|
| SearchStore.RemoveId | app/src/main/java/top/yooho/setting/InstalledSearchEnginesSettingsFragment.kt:135-137 | removing an engine deletes exactly the engines with its id and keeps every other one |
| SearchStore.Upsert | app/src/main/java/top/yooho/search/SearchEngineListPreference.kt:119 | adding an engine with a new id appends it; with a known id it replaces in place without changing the length; no other engine is lost |
| SearchStore.Customs | app/src/main/java/top/yooho/setting/InstalledSearchEnginesSettingsFragment.kt:134 | the custom-engine list holds exactly the installed engines of type CUSTOM |
| SearchStore.NonCustoms | app/src/main/java/top/yooho/setting/InstalledSearchEnginesSettingsFragment.kt:133-144 | exactly the installed engines that are not custom, which a restore keeps |
| SearchStore.Additionals | app/src/main/java/top/yooho/setting/InstalledSearchEnginesSettingsFragment.kt:130 | the additional-engine list holds exactly the installed engines of type BUNDLED_ADDITIONAL |
| SearchStore.FilterKeepsDistinctIds | app/src/main/java/top/yooho/setting/InstalledSearchEnginesSettingsFragment.kt:134 | a sub-list of an engine list with distinct ids has distinct ids |
| SearchStore.EngineStore.constructor | app/src/main/java/top/yooho/search/SearchEngineListPreference.kt:118 | a registry holding the given lists, with no user selection |
| SearchStore.EngineStore.UpsertKeepsDistinctIds | app/src/main/java/top/yooho/search/SearchEngineListPreference.kt:119 | adding keeps the installed ids distinct |
| SearchStore.EngineStore.Add | app/src/main/java/top/yooho/setting/InstalledSearchEnginesSettingsFragment.kt:140-142 | add installs or replaces the engine and un-hides a non-custom one; the registry invariant is kept and nothing else changes |
| SearchStore.EngineStore.RemoveCustom | app/src/main/java/top/yooho/setting/InstalledSearchEnginesSettingsFragment.kt:135-137 | removing a custom engine deletes it by id, keeps the invariant and changes nothing else |
| SearchStore.EngineStore.Select | app/src/main/java/top/yooho/search/RadioSearchEngineListPreference.kt:45 | selecting sets the user-selected id and leaves the engine lists alone |
| SearchEngineList.CatalogueEntry | app/src/main/java/top/yooho/search/SearchEngineListPreference.kt:119-127 | a catalogue engine has its id and name, type CUSTOM, encoding UTF-8 and exactly one result URL containing `{searchTerms}` |
| SearchEngineList.CatalogueIdsListed | app/src/main/java/top/yooho/search/SearchEngineListPreference.kt:118-228 | the catalogue lists mita, baidu, 360, sogou, sm, quark, douyin, toutiao in declaration order |
| SearchEngineList.CatalogueDistinctIds | app/src/main/java/top/yooho/search/SearchEngineListPreference.kt:118-228 | the eight catalogue ids are distinct |
| SearchEngineList.CatalogueEntriesCustom | app/src/main/java/top/yooho/search/SearchEngineListPreference.kt:119-227 | every provisioned engine has type CUSTOM, encoding UTF-8 and one result URL |
| SearchEngineList.CatalogueUrlsHavePlaceholder | app/src/main/java/top/yooho/search/SearchEngineListPreference.kt:119-227 | every provisioned result URL contains `{searchTerms}` |
| SearchEngineList.EnsureEntry | app/src/main/java/top/yooho/search/SearchEngineListPreference.kt:118-128 | a guarded insert leaves the id installed, keeps the old list as a prefix and adds at most one engine |
| SearchEngineList.ProvisionFrom | app/src/main/java/top/yooho/search/SearchEngineListPreference.kt:118-228 | the guarded inserts keep the old list as a prefix and add at most one engine per catalogue entry |
| SearchEngineList.Provision | app/src/main/java/top/yooho/search/SearchEngineListPreference.kt:115-230 | `loadSearchEngines` keeps the old list as a prefix and adds at most eight engines |
| SearchEngineList.EnsureEntryAfterMissing | app/src/main/java/top/yooho/search/SearchEngineListPreference.kt:118 | a guarded insert after earlier inserts appends the engine iff its id was absent from the original list |
| SearchEngineList.ProvisionFromAppendsMissing | app/src/main/java/top/yooho/search/SearchEngineListPreference.kt:118-228 | the guarded inserts, each re-reading the updated store, append exactly the catalogue engines whose id was absent, in catalogue order |
| SearchEngineList.ProvisionFromHasAll | app/src/main/java/top/yooho/search/SearchEngineListPreference.kt:118-228 | after the inserts every catalogue id is present |
| SearchEngineList.ProvisionAppendsMissing | app/src/main/java/top/yooho/search/SearchEngineListPreference.kt:115-230 | `loadSearchEngines` appends exactly the missing catalogue engines, in declaration order |
| SearchEngineList.ProvisionHasCatalogue | app/src/main/java/top/yooho/search/SearchEngineListPreference.kt:118-228 | after `loadSearchEngines` each of the eight ids is installed |
| SearchEngineList.ProvisionKeepsExisting | app/src/main/java/top/yooho/search/SearchEngineListPreference.kt:118-228 | existing engines are neither re-added nor overwritten: the old list is a prefix, and every appended engine is a catalogue engine whose id was absent |
| SearchEngineList.AppendMissingKeepsDistinctIds | app/src/main/java/top/yooho/search/SearchEngineListPreference.kt:118-228 | appending the missing catalogue engines keeps ids distinct |
| SearchEngineList.ProvisionKeepsDistinctIds | app/src/main/java/top/yooho/search/SearchEngineListPreference.kt:115-230 | `loadSearchEngines` keeps installed ids distinct |
| SearchEngineList.ProvisionFromIdempotent | app/src/main/java/top/yooho/search/SearchEngineListPreference.kt:118-228 | running the guarded inserts twice adds nothing the second time |
| SearchEngineList.ProvisionIdempotent | app/src/main/java/top/yooho/search/SearchEngineListPreference.kt:115-230 | `loadSearchEngines` is idempotent |
| SearchEngineList.Rows | app/src/main/java/top/yooho/search/SearchEngineListPreference.kt:86-96 | one row per engine |
| SearchEngineList.RowsSpec | app/src/main/java/top/yooho/search/SearchEngineListPreference.kt:75-96 | row i has id i, tag `engines[i].id` and the engine's name, and is checked iff its engine id is the selected-or-default id; with distinct ids at most one row is checked |
| SearchEngineList.CheckedChangeAsWritten | app/src/main/java/top/yooho/search/RadioSearchEngineListPreference.kt:31-46 | the handler as written: reads the row's flags before its null check, so an absent row crashes; otherwise ignore or select `checkedId` |
| SearchEngineList.CheckedChangeDecision | app/src/main/java/top/yooho/search/RadioSearchEngineListPreference.kt:31-46 | never crashes; selects iff the row count equals the engine count, the row exists and it was pressed or accessibility-focused; the selected index is `checkedId` and is within the engine list |
| SearchEngineList.CheckedChangeAsWrittenCrashes | app/src/main/java/top/yooho/search/RadioSearchEngineListPreference.kt:32-39 | with 2 rows, 4 engines and checked id 2 the code as written crashes where the guard meant to ignore the event |
| SearchEngineList.CheckedChangeAsWrittenAgrees | app/src/main/java/top/yooho/search/RadioSearchEngineListPreference.kt:32-41 | the code as written crashes exactly when the row is absent, and otherwise decides as the corrected handler does |
| SearchEngineList.InsertMissing | app/src/main/java/top/yooho/search/SearchEngineListPreference.kt:118-228 | inserting the missing catalogue engines one by one, re-reading the store each time, leaves the installed list equal to `ProvisionFrom`; hidden, available and selection unchanged |
| SearchEngineList.RadioGroup.constructor | app/src/main/java/top/yooho/search/SearchEngineListPreference.kt:78 | an empty group without a listener |
| SearchEngineList.RadioSearchEngineListPreference.constructor | app/src/main/java/top/yooho/search/SearchEngineListPreference.kt:45-47 | a preference with no engines, no bound group and no click listener |
| SearchEngineList.RadioSearchEngineListPreference.LoadSearchEngines | app/src/main/java/top/yooho/search/SearchEngineListPreference.kt:115-230 | provisions the store and returns exactly the store's current list |
| SearchEngineList.RadioSearchEngineListPreference.UpdateDefaultItem | app/src/main/java/top/yooho/search/RadioSearchEngineListPreference.kt:27-29 | marks the button checked and changes nothing else about it |
| SearchEngineList.RadioSearchEngineListPreference.RefreshSearchEngineViews | app/src/main/java/top/yooho/search/SearchEngineListPreference.kt:67-97 | without a group nothing changes; otherwise the group holds exactly the rows built from `searchEngines` and keeps its listener |
| SearchEngineList.RadioSearchEngineListPreference.RefetchSearchEngines | app/src/main/java/top/yooho/search/SearchEngineListPreference.kt:62-65 | reloads the provisioned list into `searchEngines` and rebuilds the rows when a group is bound |
| SearchEngineList.RadioSearchEngineListPreference.OnBindViewHolder | app/src/main/java/top/yooho/search/RadioSearchEngineListPreference.kt:22-25 | binds the group, loads and builds the rows, and only then attaches the checked-change listener |
| SearchEngineList.RadioSearchEngineListPreference.OnCheckedChanged | app/src/main/java/top/yooho/search/RadioSearchEngineListPreference.kt:31-46 | selects exactly `searchEngines[checkedId]` when the corrected decision says so, and otherwise leaves the selection; engine lists never change |
| InstalledSearchEngines.FilterEmptyIff | app/src/main/java/top/yooho/setting/InstalledSearchEnginesSettingsFragment.kt:130 | a filtered list is empty iff no element passes |
| InstalledSearchEngines.HasDefaultSearchEnginesOnly | app/src/main/java/top/yooho/setting/InstalledSearchEnginesSettingsFragment.kt:129-131 | defaults-only implies nothing available and no custom or additional engine installed; `DefaultsOnlyMeans` gives the converse |
| InstalledSearchEngines.DefaultsOnlyMeans | app/src/main/java/top/yooho/setting/InstalledSearchEnginesSettingsFragment.kt:129-131 | `hasDefaultSearchEnginesOnly` holds iff the available list is empty and no installed engine is additional or custom |
| InstalledSearchEngines.HasIdAppend | app/src/main/java/top/yooho/setting/InstalledSearchEnginesSettingsFragment.kt:139-143 | an id is in a joined list iff it is in one of the parts |
| InstalledSearchEngines.RemoveOneMore | app/src/main/java/top/yooho/setting/InstalledSearchEnginesSettingsFragment.kt:134-138 | removing one more custom engine extends the set of removed ids by its id |
| InstalledSearchEngines.RemovingCustomIdsLeavesNonCustoms | app/src/main/java/top/yooho/setting/InstalledSearchEnginesSettingsFragment.kt:134-138 | removing every custom engine by id leaves exactly the non-custom engines |
| InstalledSearchEngines.RemoveFirstId | app/src/main/java/top/yooho/setting/InstalledSearchEnginesSettingsFragment.kt:139-143 | un-hiding the first hidden engine drops exactly that one from the hidden list |
| InstalledSearchEngines.AppendHiddenStep | app/src/main/java/top/yooho/setting/InstalledSearchEnginesSettingsFragment.kt:139-143 | the next hidden engine is not yet installed, and adding it moves it from the hidden list to the end of the installed list |
| InstalledSearchEngines.RemoveCustomEngines | app/src/main/java/top/yooho/setting/InstalledSearchEnginesSettingsFragment.kt:134-138 | every custom engine is removed and the non-custom engines stay, in order |
| InstalledSearchEngines.AddNextHidden | app/src/main/java/top/yooho/setting/InstalledSearchEnginesSettingsFragment.kt:140-142 | one more hidden engine moves from the hidden list to the end of the installed list, keeping the registry invariant |
| InstalledSearchEngines.AddHiddenEngines | app/src/main/java/top/yooho/setting/InstalledSearchEnginesSettingsFragment.kt:139-143 | every hidden engine is added back, in order, and the hidden list ends empty |
| InstalledSearchEngines.RestoreSearchDefaults | app/src/main/java/top/yooho/setting/InstalledSearchEnginesSettingsFragment.kt:133-144 | the installed list becomes the non-custom engines followed by the formerly hidden ones; the available list and the selection are untouched |
| InstalledSearchEngines.RestoreDefaultsOnlyIff | app/src/main/java/top/yooho/setting/InstalledSearchEnginesSettingsFragment.kt:129-144 | after a restore no custom engine remains, and defaults-only then holds iff nothing is available and no additional engine is installed |
| InstalledSearchEngines.LanguageChangeResetsCustomEngines | app/src/main/java/top/yooho/setting/InstalledSearchEnginesSettingsFragment.kt:90-95 | after a restore and the refetch, the custom engines are exactly the catalogue engines whose id no restored engine already uses: the user's own custom engines are gone, and a non-custom engine that keeps a catalogue id (such as "baidu") keeps that catalogue entry out |
| InstalledSearchEngines.LanguageFlag.constructor | app/src/main/java/top/yooho/setting/InstalledSearchEnginesSettingsFragment.kt:94 | a flag holding the given value |
| InstalledSearchEngines.InstalledSearchEnginesSettings.constructor | app/src/main/java/top/yooho/setting/InstalledSearchEnginesSettingsFragment.kt:33-35 | a screen over the given store and flag, with no preference yet |
| InstalledSearchEngines.InstalledSearchEnginesSettings.SetupPreferences | app/src/main/java/top/yooho/setting/InstalledSearchEnginesSettingsFragment.kt:44-48 | the click listener is set on the current preference, if there is one |
| InstalledSearchEngines.InstalledSearchEnginesSettings.RefetchSearchEngines | app/src/main/java/top/yooho/setting/InstalledSearchEnginesSettingsFragment.kt:117-126 | the screen is rebuilt with a fresh preference, with no group and no click listener, holding the provisioned engine list |
| InstalledSearchEngines.InstalledSearchEnginesSettings.OnPreferenceClick | app/src/main/java/top/yooho/setting/InstalledSearchEnginesSettingsFragment.kt:50-55 | a click refetches and reports the click handled |
| InstalledSearchEngines.InstalledSearchEnginesSettings.RestoreSearchEngines | app/src/main/java/top/yooho/setting/InstalledSearchEnginesSettingsFragment.kt:90-95 | restores defaults, refetches, and clears the language-changed flag |
| InstalledSearchEngines.InstalledSearchEnginesSettings.OnResume | app/src/main/java/top/yooho/setting/InstalledSearchEnginesSettingsFragment.kt:33-42 | restores iff the language changed, otherwise only refetches; the flag ends cleared; the displayed preference is fresh and has no click listener |
| BrowserActivity.FirstConsumer | app/src/main/java/org/mozilla/reference/browser/BrowserActivity.kt:96-100 | the first fragment that handles the press, or none iff no fragment handles it |
| BrowserActivity.BackStep | app/src/main/java/org/mozilla/reference/browser/BrowserActivity.kt:95-124 | a press a fragment handles changes nothing; the press exits iff no fragment handles it, the prompt is shown, at most 3000 ms have passed and the callback is enabled; the callback stays enabled iff it was enabled and did not exit |
| BrowserActivity.Dispatch | app/src/main/java/org/mozilla/reference/browser/BrowserActivity.kt:89-91 | a disabled callback is not called and the press goes to the system; an exit disables the callback; nothing re-enables it |
| BrowserActivity.Run | app/src/main/java/org/mozilla/reference/browser/BrowserActivity.kt:89-126 | one outcome per back press |
| BrowserActivity.DisabledNeverExits | app/src/main/java/org/mozilla/reference/browser/BrowserActivity.kt:115-118 | a disabled callback never exits and stays disabled |
| BrowserActivity.ExitsAtMostOnce | app/src/main/java/org/mozilla/reference/browser/BrowserActivity.kt:113-118 | any run of presses exits at most once, and after an exit the callback is disabled |
| BrowserActivity.ConsumedPressKeepsState | app/src/main/java/org/mozilla/reference/browser/BrowserActivity.kt:96-100 | a press a fragment handles leaves `isPromptShown` and `lastBackPressTime` unchanged |
| BrowserActivity.RunCons | app/src/main/java/org/mozilla/reference/browser/BrowserActivity.kt:95 | a run starts with the first press's step |
| BrowserActivity.RunOne | app/src/main/java/org/mozilla/reference/browser/BrowserActivity.kt:95 | a run of one press is that press's step |
| BrowserActivity.QuickSecondPressExits | app/src/main/java/org/mozilla/reference/browser/BrowserActivity.kt:102-118 | two unhandled presses within 3000 ms show the prompt, then exit and disable the callback |
| BrowserActivity.SlowSecondPressResets | app/src/main/java/org/mozilla/reference/browser/BrowserActivity.kt:102-122 | a second press after more than 3000 ms only resets the prompt and keeps the time, so the third press prompts again |
| BrowserActivity.BackPressCallback.constructor | app/src/main/java/org/mozilla/reference/browser/BrowserActivity.kt:91-93 | enabled, prompt not shown, time 0 |
| BrowserActivity.BackPressCallback.HandleOnBackPressed | app/src/main/java/org/mozilla/reference/browser/BrowserActivity.kt:95-124 | a handled press changes nothing; a first press shows the prompt and records now; a press within 3000 ms disables the callback and exits only if it was enabled; a later press only resets the prompt |
| BrowserActivity.ProvisionedStoreHasBaidu | app/src/main/java/org/mozilla/reference/browser/BrowserActivity.kt:129-136 | when no installed engine has the id "baidu", provisioning adds the catalogue's 百度 engine, so the start-up search by name finds a candidate; nothing in the code provisions before this pick in `onCreate` (provisioning runs only when the search-engine preference is bound or refetched, SearchEngineListPreference.kt:50 and :63), so on a first start the pick may find nothing |
| BrowserActivity.UseCases.constructor | app/src/main/java/org/mozilla/reference/browser/BrowserActivity.kt:141 | no call made yet |
| BrowserActivity.UseCases.Invoke | app/src/main/java/org/mozilla/reference/browser/BrowserActivity.kt:141 | a call is appended to the record |
| BrowserActivity.BrowserActivity.constructor | app/src/main/java/org/mozilla/reference/browser/BrowserActivity.kt:89 | an activity over the given store, use cases and start-page URL |
| BrowserActivity.BrowserActivity.SelectBaiduIfUnset | app/src/main/java/org/mozilla/reference/browser/BrowserActivity.kt:129-136 | with a user selection nothing changes; without one the first engine whose name contains 百度 or whose lower-cased name contains baidu is selected, and nothing happens when there is none |
| BrowserActivity.BrowserActivity.LoadExtraUrl | app/src/main/java/org/mozilla/reference/browser/BrowserActivity.kt:139-142 | an extra URL is loaded; none, nothing |
| BrowserActivity.BrowserActivity.OnActivityResult | app/src/main/java/org/mozilla/reference/browser/BrowserActivity.kt:146-159 | the superclass is called iff no fragment handles the result |
| BrowserActivity.BrowserActivity.OnNavigateToBrowser | app/src/main/java/org/mozilla/reference/browser/BrowserActivity.kt:213-226 | the start page is loaded iff there are no tabs |
| BrowserActivity.BrowserActivity.OpenToBrowser | app/src/main/java/org/mozilla/reference/browser/BrowserActivity.kt:232-246 | nothing for a null URL; a selected new tab with the private flag when `newTab`; otherwise a load in place |
| BrowserActivity.BrowserActivity.OnNewIntent | app/src/main/java/org/mozilla/reference/browser/BrowserActivity.kt:248-255 | an extra URL opens in a new selected non-private tab |
| BaseBrowserFragment.AskHandlers | app/src/main/java/org/mozilla/reference/browser/browser/BaseBrowserFragment.kt:482 | consumed iff some handler consumes; handlers are asked in order, stopping at the first that consumes; all are asked when none does |
| BaseBrowserFragment.BaseOnBackPressed | app/src/main/java/org/mozilla/reference/browser/browser/BaseBrowserFragment.kt:482 | the base back press is consumed iff full screen, find in page, toolbar, session or last tab consumes it, and full screen is asked first |
| BaseBrowserFragment.BaseOnActivityResult | app/src/main/java/org/mozilla/reference/browser/browser/BaseBrowserFragment.kt:541 | an activity result is consumed iff WebAuthn or prompts consumes it; prompts is asked only when WebAuthn declines |
| BaseBrowserFragment.FullScreenAskedFirst | app/src/main/java/org/mozilla/reference/browser/browser/BaseBrowserFragment.kt:103-109 | the full-screen feature is asked first, and when it consumes nothing else is asked |
| BaseBrowserFragment.UnconsumedBackAsksAll | app/src/main/java/org/mozilla/reference/browser/browser/BaseBrowserFragment.kt:103-109 | an unconsumed press asks full screen, find in page, toolbar, session and last tab, in that order |
| BaseBrowserFragment.OnDownloadStopped | app/src/main/java/org/mozilla/reference/browser/browser/BaseBrowserFragment.kt:277-286 | an install starts iff the download completed and its name ends in ".xpi" ignoring case, and it installs `file://` + the file path (the URL built at BaseBrowserFragment.kt:504) |
| BaseBrowserFragment.XpiDecisionByLowercase | app/src/main/java/org/mozilla/reference/browser/browser/BaseBrowserFragment.kt:282 | a completed download installs iff its lower-cased last four characters are ".xpi" |
| BaseBrowserFragment.XpiDecisionExamples | app/src/main/java/org/mozilla/reference/browser/browser/BaseBrowserFragment.kt:278-285 | ".XPI" and ".Xpi" install, ".zip", a missing name and a failed download do not |
| BaseBrowserFragment.Permissions | app/src/main/java/org/mozilla/reference/browser/browser/BaseBrowserFragment.kt:129 | the permission names, in the map's order |
| BaseBrowserFragment.GrantResults | app/src/main/java/org/mozilla/reference/browser/browser/BaseBrowserFragment.kt:130-134 | one Android grant code per permission, always GRANTED or DENIED |
| BaseBrowserFragment.ReadPermissionResults | app/src/main/java/org/mozilla/reference/browser/browser/BaseBrowserFragment.kt:128-134 | how a feature reads the two arrays: position by position, granted iff the code is GRANTED |
| BaseBrowserFragment.PermissionResultsRoundTrip | app/src/main/java/org/mozilla/reference/browser/browser/BaseBrowserFragment.kt:128-134 | reading the two arrays back position by position yields the original results: true is GRANTED, false DENIED |
| BaseBrowserFragment.OnPictureInPictureModeChanged | app/src/main/java/org/mozilla/reference/browser/browser/BaseBrowserFragment.kt:486-494 | when picture-in-picture ends on a full-screen tab the fragment's own, overridable back press runs and then full screen is left, whatever the press did; otherwise neither happens; no tab counts as not full screen |
| BaseBrowserFragment.BasePictureInPictureAsksFullScreen | app/src/main/java/org/mozilla/reference/browser/browser/BaseBrowserFragment.kt:490-493 | with the base chain that press asks the full-screen feature first, and only it when it consumes |
| BrowserFragment.LexLeTotal | app/src/main/java/org/mozilla/reference/browser/browser/BrowserFragment.kt:303 | any two names are ordered one way or the other |
| BrowserFragment.LexLeTransitive | app/src/main/java/org/mozilla/reference/browser/browser/BrowserFragment.kt:303 | the name order is transitive |
| BrowserFragment.NameLeTotal | app/src/main/java/org/mozilla/reference/browser/browser/BrowserFragment.kt:303 | the sort-key order, where a missing name comes first, is total |
| BrowserFragment.NameLeTransitive | app/src/main/java/org/mozilla/reference/browser/browser/BrowserFragment.kt:303 | the sort-key order is transitive |
| BrowserFragment.InsertByName | app/src/main/java/org/mozilla/reference/browser/browser/BrowserFragment.kt:303 | inserting adds exactly the one extension |
| BrowserFragment.InsertByNameSorted | app/src/main/java/org/mozilla/reference/browser/browser/BrowserFragment.kt:303 | inserting into a name-sorted list keeps it sorted |
| BrowserFragment.SortByName | app/src/main/java/org/mozilla/reference/browser/browser/BrowserFragment.kt:303 | sorting is a permutation |
| BrowserFragment.SortByNameSorted | app/src/main/java/org/mozilla/reference/browser/browser/BrowserFragment.kt:303 | the sorted list is ordered by name |
| BrowserFragment.FilterKeepsSorted | app/src/main/java/org/mozilla/reference/browser/browser/BrowserFragment.kt:306 | dropping elements from a sorted list keeps it sorted |
| BrowserFragment.SheetListSpec | app/src/main/java/org/mozilla/reference/browser/browser/BrowserFragment.kt:300-309 | the sheet lists exactly the extensions that are enabled, not built in, and not disallowed in private browsing while the tab is private; the list is sorted by name |
| BrowserFragment.VisibleExtensions | app/src/main/java/org/mozilla/reference/browser/browser/BrowserFragment.kt:298-309 | the `forEach` loop builds exactly that list, sorted by name |
| BrowserFragment.NoTabNoPrivateFilter | app/src/main/java/org/mozilla/reference/browser/browser/BrowserFragment.kt:302 | with no selected tab the private-browsing filter removes nothing |
| BrowserFragment.PrivateTabHidesDisallowed | app/src/main/java/org/mozilla/reference/browser/browser/BrowserFragment.kt:302 | in a private tab an enabled non-built-in extension is listed iff it is allowed in private browsing |
| BrowserFragment.OnAddonSelected | app/src/main/java/org/mozilla/reference/browser/browser/BrowserFragment.kt:336-370 | "builtin://addons_manager" opens the manager; an id not listed does nothing; otherwise the first listed extension with the id gets its browser action, else its page action, else its details screen |
| BrowserFragment.ListedExtensionIsActedOn | app/src/main/java/org/mozilla/reference/browser/browser/BrowserFragment.kt:345-367 | selecting a listed extension always does something |
| BrowserFragment.AddonButtonTarget | app/src/main/java/org/mozilla/reference/browser/browser/BrowserFragment.kt:239-261 | the sheet opens iff a tab is selected whose URL does not contain the start-page URL and starts with "http"; otherwise the add-ons screen |
| BrowserFragment.StartPageOpensAddonsActivity | app/src/main/java/org/mozilla/reference/browser/browser/BrowserFragment.kt:251-255 | a URL containing the start-page URL opens the add-ons screen |
| BrowserFragment.HttpsPageOpensSheet | app/src/main/java/org/mozilla/reference/browser/browser/BrowserFragment.kt:251-258 | an https page not containing the start-page URL opens the sheet |
| BrowserFragment.Toolbar.constructor | app/src/main/java/org/mozilla/reference/browser/browser/BrowserFragment.kt:200 | a toolbar without navigation actions |
| BrowserFragment.Toolbar.AddHomeAction | app/src/main/java/org/mozilla/reference/browser/browser/BrowserFragment.kt:212-214 | the home action is added iff the show-home-button setting is on |
| BrowserFragment.BottomBar.constructor | app/src/main/java/org/mozilla/reference/browser/browser/BrowserFragment.kt:217-218 | both buttons enabled and fully opaque, as inflated |
| BrowserFragment.BottomBar.Collect | app/src/main/java/org/mozilla/reference/browser/browser/BrowserFragment.kt:276-283 | back is enabled iff the tab can go back, forward iff it can go forward, no tab disables both, and each button is dimmed exactly when disabled |
| BrowserFragment.BottomBar.Observe | app/src/main/java/org/mozilla/reference/browser/browser/BrowserFragment.kt:268-286 | after a series of selected-tab values, with repeats dropped by `distinctUntilChanged`, the buttons match the last value; the dimming stays consistent |
| BrowserFragment.OnBackPressedIsChain | app/src/main/java/org/mozilla/reference/browser/browser/BrowserFragment.kt:181 | the browser fragment's back press is the handler chain with the reader view in front: the base handlers are asked only when the reader view declines |
| BrowserFragment.OnBackPressed | app/src/main/java/org/mozilla/reference/browser/browser/BrowserFragment.kt:181 | the browser fragment's back press is consumed iff the reader view or one of the five base handlers consumes it |
| BrowserFragment.PictureInPictureGoesThroughReaderView | app/src/main/java/org/mozilla/reference/browser/browser/BrowserFragment.kt:181 | when picture-in-picture ends on a full-screen tab the press goes to the reader view first: if it consumes, the full-screen feature is never asked, yet full screen is left all the same; otherwise the full-screen feature is asked next (BaseBrowserFragment.kt:490-493) |
| Addons.AddonItemTarget | app/src/main/java/org/mozilla/reference/browser/addons/AddonsFragment.kt:120-130 | installed add-ons open the installed-details screen, all others the details screen; `ItemClickOpensDetails` gives what a click does to the screen |
| Addons.ItemClickOpensDetails | app/src/main/java/org/mozilla/reference/browser/addons/AddonsFragment.kt:120-130 | a click starts exactly one details screen carrying the clicked add-on, installed details iff it is installed, even while an install runs, and leaves the install state and its invariant untouched |
| Addons.BeginInstall | app/src/main/java/org/mozilla/reference/browser/addons/AddonsFragment.kt:139-142 | starting an install, from the list or from a file (AddonsFragment.kt:185-190), raises the flag, shows the overlay and sends exactly one request |
| Addons.Step | app/src/main/java/org/mozilla/reference/browser/addons/AddonsFragment.kt:80-160 | start with a view rebinds and hides the overlay; start without one throws; a click while installing changes nothing; a click otherwise, or an accepted file, starts an install; an attached success clears the flag and, with a view, rebinds and hides the overlay, without one throws; an attached error with a view clears the flag and hides the overlay, without one throws with the flag still raised; a detached answer changes nothing on the screen; after a throw nothing changes |
| Addons.Run | app/src/main/java/org/mozilla/reference/browser/addons/AddonsFragment.kt:80-160 | requests, answers and started screens are never retracted, and a crashed screen stays as it is |
| Addons.StepKeepsSerialised | app/src/main/java/org/mozilla/reference/browser/addons/AddonsFragment.kt:132-137 | with installs started only from the list and every event finding the view, one step keeps the screen alive with at most one request outstanding and the flag raised exactly while it is |
| Addons.ListInstallsAreSerialised | app/src/main/java/org/mozilla/reference/browser/addons/AddonsFragment.kt:132-160 | the same holds over any run of such events: the guard serialises list installs |
| Addons.FileInstallBypassesGuard | app/src/main/java/org/mozilla/reference/browser/addons/AddonsFragment.kt:184-206 | a file chosen during a list install sends a second request, and the first success clears the flag while one request is still outstanding |
| Addons.DetachedAnswerKeepsFlag | app/src/main/java/org/mozilla/reference/browser/addons/AddonsFragment.kt:144-158 | an answer arriving while detached leaves the flag raised, so a re-attached instance would ignore later install clicks; a re-created screen is a new instance with the flag cleared |
| Addons.CallbacksWithoutViewCrash | app/src/main/java/org/mozilla/reference/browser/addons/AddonsFragment.kt:144-158 | as written, start without a view throws; an attached success without a view throws after clearing the flag; an attached error without a view throws with the flag raised and nothing outstanding |
| Addons.StepGuarded | app/src/main/java/org/mozilla/reference/browser/addons/AddonsFragment.kt:144-158 | the corrected callbacks: equal to `Step` whenever the view is found; never throw; an attached answer always clears the flag |
| Addons.RunGuarded | app/src/main/java/org/mozilla/reference/browser/addons/AddonsFragment.kt:80-160 | under the corrected callbacks requests and answers are never retracted |
| Addons.GuardedListInstallsAreSerialised | app/src/main/java/org/mozilla/reference/browser/addons/AddonsFragment.kt:132-160 | under the corrected callbacks list installs stay serialised whether or not the view exists when an answer arrives |
| Addons.AddonsFragment.constructor | app/src/main/java/org/mozilla/reference/browser/addons/AddonsFragment.kt:230 | no install in progress, no request sent |
| Addons.AddonsFragment.BindRecyclerView | app/src/main/java/org/mozilla/reference/browser/addons/AddonsFragment.kt:90-118 | the list is bound once more, nothing else changes |
| Addons.AddonsFragment.OnStart | app/src/main/java/org/mozilla/reference/browser/addons/AddonsFragment.kt:80-88 | with a view: rebinds and hides the overlay, leaving the flag unchanged; without one: `requireView()` throws |
| Addons.AddonsFragment.OnAddonItemClicked | app/src/main/java/org/mozilla/reference/browser/addons/AddonsFragment.kt:120-130 | starts the details screen for the add-on, installed details iff installed, with no guard |
| Addons.AddonsFragment.InstallAddon | app/src/main/java/org/mozilla/reference/browser/addons/AddonsFragment.kt:139-143 | shows the overlay, raises the flag and sends the request |
| Addons.AddonsFragment.OnInstallAddonButtonClicked | app/src/main/java/org/mozilla/reference/browser/addons/AddonsFragment.kt:132-137 | a click while an install is in progress starts nothing |
| Addons.AddonsFragment.OnFileChosen | app/src/main/java/org/mozilla/reference/browser/addons/AddonsFragment.kt:71-76 | an accepted picker result with a URI starts an install from it, without the guard |
| Addons.AddonsFragment.OnInstallSucceeded | app/src/main/java/org/mozilla/reference/browser/addons/AddonsFragment.kt:144-152 | when attached: clears the flag, then rebinds and hides the overlay with a view, or throws without one; the file install's callback (AddonsFragment.kt:192-207) does the same |
| Addons.AddonsFragment.OnInstallFailed | app/src/main/java/org/mozilla/reference/browser/addons/AddonsFragment.kt:153-158 | when attached: with a view hides the overlay and clears the flag without rebinding; without one throws before clearing the flag; the file install's callback (AddonsFragment.kt:208-223) does the same |
| Settings.GetDisplayLanguage | app/src/main/java/org/mozilla/reference/browser/settings/SettingsFragment.kt:329-342 | zh with TW gives the Traditional-Chinese label and any other zh country the Simplified-Chinese one; en the English label; every other language its name as rendered in the display locale in force (`Locale.getDisplayLanguage()`) |
| Settings.LabelDependsOnDisplayLocale | app/src/main/java/org/mozilla/reference/browser/settings/SettingsFragment.kt:329-342 | with labels as modelled here (see "## Left out"), a locale gets the same label under two display locales iff it is zh or en, or the display locales are the same; so the label of any other language may change once the interface follows the new language |
| Settings.GetCurrentLocale | app/src/main/java/org/mozilla/reference/browser/settings/SettingsFragment.kt:348-350 | the first application locale, or the default locale when none is set; `PreferenceScreen.OnLanguageSelected` proves that a selected language is what it yields from then on |
| Settings.Hide | app/src/main/java/org/mozilla/reference/browser/settings/SettingsFragment.kt:105 | hiding a present preference makes it invisible and touches nothing else; an absent one is ignored |
| Settings.PreferencesAfterSetup | app/src/main/java/org/mozilla/reference/browser/settings/SettingsFragment.kt:74-158 | after a setup that does not throw: compose UI, sign-in, pair sign-in and account are hidden; autofill is hidden when unsupported; the developer-tools category is removed iff present and developer mode (default false) is off; nothing else changes |
| Settings.SetupStepsMeetSpec | app/src/main/java/org/mozilla/reference/browser/settings/SettingsFragment.kt:105-157 | the hides one at a time in the code's order, then the conditional removal, give exactly the per-key description `PreferencesAfterSetup` |
| Settings.SetupHidesHide | app/src/main/java/org/mozilla/reference/browser/settings/SettingsFragment.kt:105-140 | the hides alone (all that happens before the autofill cast) make exactly compose UI, sign-in, pair sign-in and account invisible, and autofill too when unsupported, keeping every key |
| Settings.SetupIsIdempotent | app/src/main/java/org/mozilla/reference/browser/settings/SettingsFragment.kt:65-68 | after a setup that did not throw, the setup run again on resume does not throw and changes nothing more |
| Settings.DeveloperCategoryNeedsStoredFlag | app/src/main/java/org/mozilla/reference/browser/settings/SettingsFragment.kt:152-157 | with no stored flag or a stored false the developer-tools category is removed; a stored true keeps it |
| Settings.PreferenceScreen.constructor | app/src/main/java/org/mozilla/reference/browser/settings/SettingsFragment.kt:62 | a screen holding the inflated preferences, without a language summary, over the app's application locales |
| Settings.PreferenceScreen.HidePreference | app/src/main/java/org/mozilla/reference/browser/settings/SettingsFragment.kt:123-125 | a present preference becomes invisible and nothing else on the screen changes; an absent one is ignored |
| Settings.PreferenceScreen.SetupPreferences | app/src/main/java/org/mozilla/reference/browser/settings/SettingsFragment.kt:74-158 | the language preference's summary is the current locale's label in the display locale in force; the setup throws iff autofill is supported and its preference is absent (the cast at :142), leaving the screen with the hides done and the category not removed; otherwise the screen becomes `PreferencesAfterSetup`; the application locales are untouched |
| Settings.PreferenceScreen.OnLanguageSelected | app/src/main/java/org/mozilla/reference/browser/settings/SettingsFragment.kt:168-187 | the chosen locale becomes the only application locale, so `getCurrentLocale` yields it for any system default, and its label in the display locale of the moment becomes the summary; `LabelDependsOnDisplayLocale` says when the next setup's label differs |

## Left out

- The About screen has no tap counter or developer-mode unlock: the developer-mode flag is only read, at `SettingsFragment.kt:154`. The model follows the code.
- Restoring the defaults does not establish "default engines only": the code never touches the available or additional engines. `InstalledSearchEngines.RestoreDefaultsOnlyIff` states exactly when it holds.
- The engine registry, the tab store, the add-on manager and the download manager belong to the external library.
  - Their behaviour is assumed: add replaces by id and un-hides; remove deletes by id; select records the id.
  - The selected-or-default engine id is an input.
  - Only the removal of custom engines is modelled, since that is the only removal the app performs.
- `SearchStore.EngineStore.RemoveCustom`: requires a custom engine, because the only caller passes engines from the custom list.
- The base `SearchEngineListPreference` and its only subclass `RadioSearchEngineListPreference` are one class here (`SearchEngineList.RadioSearchEngineListPreference`).
- The eight guarded inserts of `loadSearchEngines` are a loop over the constant catalogue in declaration order; each insert re-reads the store as the code does.
- Icons, bitmaps, layouts, inflation, toasts, snackbars, logging, intents and fragment transactions are left out. Routing decisions are values naming the screen or action.
- Coroutines and dispatchers: add-on callbacks and list binding are sequential events.
- The wall clock is a parameter `now`.
- Case folding (`lowercase()`, `endsWith(ignoreCase = true)`) is ASCII-only here; Kotlin folds all of Unicode.
- Kotlin compares strings by UTF-16 code unit; the model compares `char` values, which agree except for characters outside the Basic Multilingual Plane.
- `BaseBrowserFragment.OnDownloadStopped`: the add-on install it starts is the URL returned; the toasts on its success and error are left out.
- `AddonsFragment.openFilePicker` and the `AddonsActivity` menu only launch an intent; a failed launch shows a toast.
- Autofill's `updateSwitch` when supported reads the system autofill state and is left out; the cast before it, which throws when the autofill preference is absent, is modelled.
- The `exitProcess` delay after overriding the add-on collection is left out.
- The start-page URL (`const_nav_url`) is a string resource whose value is not part of this model; it is the parameter `navUrl`.

- `Addons.AddonsFragment`'s event methods require a screen that has not thrown: after a throw the process is gone and no further callback arrives.
- Item clicks, install clicks and file-picker results are taken to find the add-ons screen's view: clicks come from its list, and a picker result is delivered to a started screen.
- `BrowserFragment.SortByName`: the stability of `sortedBy` (extensions with equal names keep their order) is not stated; only the permutation and the name order are.
- `BrowserFragment.BottomBar.Observe` models one subscription of `repeatOnLifecycle`; a new subscription starts without a previous value.
- The language dialog's `clearAnnouncementData` is left out, and the chosen locale is stored as is: the `forLanguageTag(toLanguageTag())` round trip is taken to be the identity.
- The search-engine preference's summary (`SettingsFragment.kt:131-134`) is a formatted string resource around the selected-or-default engine's name; that engine is an input of this model, and the summary is left out.
- `Settings.LabelDependsOnDisplayLocale`: a shown language name is the pair (language, display locale), so two display locales that render a name alike (French under en_US and en_GB) still count as different labels; and the zh and en labels are taken to be the same string resources under every locale, whether or not those resources are translated.
- `fullScreenChanged(false)` is reduced to the fact that full screen was left; the immersive-mode, toolbar and engine-view calls are left out.

## Findings

| source | as written | input that shows it | evidently intended | confidence | as-written member | corrected member |
|---|---|---|---|---|---|---|
| app/src/main/java/top/yooho/search/RadioSearchEngineListPreference.kt:32-41 | `isPressed` is read on `getChildAt(checkedId)` before the `selectedEngine == null` check, so an absent row throws | 2 rows built, 4 engines, check event for row 2 (the group fires while rows are still being added) | an absent row makes the handler return, as the guard's comment says | not executed | SearchEngineList.CheckedChangeAsWritten | SearchEngineList.CheckedChangeDecision |
| app/src/main/java/org/mozilla/reference/browser/addons/AddonsFragment.kt:144-158 | the callbacks guard the rebind with `view?.let`, then reach the overlay through `requireView()`, which throws for an attached fragment without a view; the error callback throws before clearing the flag | an install answered with an error after the view was destroyed while the fragment stays attached: `InstallClicked`, then `InstallFailed(true, false)` | skip the view work when there is no view and still clear the flag, as the `view?.let` guard intends | not executed | Addons.CallbacksWithoutViewCrash | Addons.GuardedListInstallsAreSerialised |

=== FILE: addons.dfy ===
/**
 * The add-ons screen: routing of an item click, and the install-in-progress
 * flag that blocks a second install from the list while one is running and
 * is cleared by the add-on manager's success and error callbacks.
 *
 * The progress overlay is reached through `requireView()`, so every callback
 * that touches it throws when the fragment has no view: the model records
 * that as a crash, after which the screen takes no further event.
 */
module Addons {
  import opened Wrappers

  /** An add-on of the list, reduced to what the screen reads. */
  datatype Addon = Addon(id: string, downloadUrl: string, installed: bool)

  /** The screen an item click opens. */
  datatype DetailsScreen = InstalledAddonDetails | AddonDetails

  /** A started details screen, with the add-on passed as its "add_on" extra. */
  datatype Details = Details(screen: DetailsScreen, addon: Addon)

  /** `onAddonItemClicked`: installed add-ons open their installed-details screen, all others the details screen. */
  function AddonItemTarget(addon: Addon): (screen: DetailsScreen)
    ensures screen == InstalledAddonDetails <==> addon.installed
    ensures screen == AddonDetails <==> !addon.installed
  {
    if addon.installed then InstalledAddonDetails else AddonDetails
  }

  /**
   * The screen's state: the install flag, the progress overlay, how often the
   * list was bound, the URLs handed to the add-on manager, how many of those
   * requests the manager has answered, the details screens started, and
   * whether a callback has thrown.
   */
  datatype ScreenState = ScreenState(
    inProgress: bool,
    overlayVisible: bool,
    listBindings: nat,
    requests: seq<string>,
    answered: nat,
    launched: seq<Details>,
    crashed: bool)

  const InitialScreen := ScreenState(false, false, 0, [], 0, [], false)

  /** The events the screen reacts to. `attached` and `hasView` describe the fragment when a callback arrives. */
  datatype ScreenEvent =
    | Start(hasView: bool)
    | ItemClicked(addon: Addon)
    | InstallClicked(addon: Addon)
    | FileChosen(resultOk: bool, uri: Option<string>)
    | InstallSucceeded(attached: bool, hasView: bool)
    | InstallFailed(attached: bool, hasView: bool)

  /** An event that finds the fragment's view: clicks come from the list and picker results from a started screen. */
  predicate FindsView(e: ScreenEvent) {
    match e
    case Start(hasView) => hasView
    case InstallSucceeded(attached, hasView) => !attached || hasView
    case InstallFailed(attached, hasView) => !attached || hasView
    case _ => true
  }

  /** `installAddon` and `installAddonFromFile`: show the overlay, raise the flag, ask the manager. */
  function BeginInstall(s: ScreenState, url: string): (t: ScreenState)
    ensures t.inProgress && t.overlayVisible && t.requests == s.requests + [url]
    ensures t.listBindings == s.listBindings && t.answered == s.answered && t.launched == s.launched && t.crashed == s.crashed
  {
    s.(overlayVisible := true, inProgress := true, requests := s.requests + [url])
  }

  /** One event, as the code is written. */
  function Step(s: ScreenState, e: ScreenEvent): (t: ScreenState)
    ensures s.crashed ==> t == s
    ensures !s.crashed ==> (t.crashed <==> !FindsView(e))
    ensures !s.crashed && e.Start? && e.hasView ==>
              !t.overlayVisible && t.listBindings == s.listBindings + 1 &&
              t.inProgress == s.inProgress && t.requests == s.requests && t.answered == s.answered
    ensures !s.crashed && e.Start? && !e.hasView ==> t == s.(crashed := true)
    ensures !s.crashed && e.ItemClicked? ==>
              t.launched == s.launched + [Details(AddonItemTarget(e.addon), e.addon)] &&
              t.inProgress == s.inProgress && t.requests == s.requests && t.answered == s.answered
    ensures !s.crashed && e.InstallClicked? && s.inProgress ==> t == s
    ensures !s.crashed && e.InstallClicked? && !s.inProgress ==>
              t.inProgress && t.overlayVisible && t.requests == s.requests + [e.addon.downloadUrl] &&
              t.listBindings == s.listBindings
    ensures !s.crashed && e.FileChosen? ==>
              if e.resultOk && e.uri.Some? then t.inProgress && t.overlayVisible && t.requests == s.requests + [e.uri.value]
              else t == s
    ensures !s.crashed && (e.InstallSucceeded? || e.InstallFailed?) ==>
              t.answered == s.answered + 1 && t.requests == s.requests && t.launched == s.launched
    ensures !s.crashed && e.InstallSucceeded? && e.attached ==>
              !t.inProgress && (e.hasView ==> !t.overlayVisible && t.listBindings == s.listBindings + 1)
    ensures !s.crashed && e.InstallFailed? && e.attached ==>
              (t.inProgress <==> s.inProgress && !e.hasView) && (e.hasView ==> !t.overlayVisible) &&
              t.listBindings == s.listBindings
    ensures !s.crashed && (e.InstallSucceeded? || e.InstallFailed?) && !e.attached ==> t == s.(answered := s.answered + 1)
  {
    if s.crashed then s
    else
      match e
      case Start(hasView) =>
        if hasView then s.(listBindings := s.listBindings + 1, overlayVisible := false)
        else s.(crashed := true)
      case ItemClicked(addon) =>
        s.(launched := s.launched + [Details(AddonItemTarget(addon), addon)])
      case InstallClicked(addon) =>
        if s.inProgress then s else BeginInstall(s, addon.downloadUrl)
      case FileChosen(resultOk, uri) =>
        if resultOk && uri.Some? then BeginInstall(s, uri.value) else s
      case InstallSucceeded(attached, hasView) =>
        var s' := s.(answered := s.answered + 1);
        if !attached then s'
        else if hasView then s'.(inProgress := false, listBindings := s.listBindings + 1, overlayVisible := false)
        else s'.(inProgress := false, crashed := true)
      case InstallFailed(attached, hasView) =>
        var s' := s.(answered := s.answered + 1);
        if !attached then s'
        else if hasView then s'.(overlayVisible := false, inProgress := false)
        else s'.(crashed := true)
  }

  /** The events in order. */
  function Run(s: ScreenState, events: seq<ScreenEvent>): (t: ScreenState)
    ensures s.requests <= t.requests && s.answered <= t.answered && s.launched <= t.launched
    ensures s.crashed ==> t == s
    decreases |events|
  {
    if events == [] then s else Run(Step(s, events[0]), events[1..])
  }

  /** Requests not yet answered by the add-on manager. */
  function Outstanding(s: ScreenState): int {
    |s.requests| - s.answered
  }

  /**
   * While installs start only from the list, the screen is alive, at most one
   * request is outstanding and the flag is raised exactly while it is.
   */
  predicate Serialised(s: ScreenState) {
    !s.crashed && 0 <= Outstanding(s) <= 1 && (s.inProgress <==> Outstanding(s) == 1)
  }

  /**
   * An event that keeps to that discipline: installs come from the list, and
   * the manager answers a request it has, while the fragment is attached.
   */
  predicate ListOnly(s: ScreenState, e: ScreenEvent) {
    match e
    case FileChosen(resultOk, uri) => !(resultOk && uri.Some?)
    case InstallSucceeded(attached, _) => attached && Outstanding(s) > 0
    case InstallFailed(attached, _) => attached && Outstanding(s) > 0
    case _ => true
  }

  /** A run of such events, each of which finds the view. */
  predicate ListOnlyRun(s: ScreenState, events: seq<ScreenEvent>)
    decreases |events|
  {
    events == [] ||
    (ListOnly(s, events[0]) && FindsView(events[0]) && ListOnlyRun(Step(s, events[0]), events[1..]))
  }

  lemma StepKeepsSerialised(s: ScreenState, e: ScreenEvent)
    requires Serialised(s) && ListOnly(s, e) && FindsView(e)
    ensures Serialised(Step(s, e))
  {
  }

  /** The guard of `onInstallAddonButtonClicked` serialises the installs started from the list. */
  lemma {:induction false} ListInstallsAreSerialised(s: ScreenState, events: seq<ScreenEvent>)
    requires Serialised(s) && ListOnlyRun(s, events)
    ensures Serialised(Run(s, events))
    decreases |events|
  {
    if events != [] {
      StepKeepsSerialised(s, events[0]);
      ListInstallsAreSerialised(Step(s, events[0]), events[1..]);
    }
  }

  /** An item click opens the details of exactly the clicked add-on, even while an install runs, and leaves the install alone. */
  lemma ItemClickOpensDetails(s: ScreenState, addon: Addon)
    requires Serialised(s)
    ensures var t := Step(s, ItemClicked(addon));
            |t.launched| == |s.launched| + 1 && t.launched[|s.launched|].addon == addon &&
            (t.launched[|s.launched|].screen == InstalledAddonDetails <==> addon.installed) &&
            Serialised(t) && t.inProgress == s.inProgress && Outstanding(t) == Outstanding(s)
  {
  }

  /**
   * `installAddonFromFile` has no such guard: a file chosen while a list
   * install runs starts a second request, and the first answer clears the
   * flag while the second is still outstanding.
   */
  lemma FileInstallBypassesGuard(addon: Addon, uri: string)
    ensures Run(InitialScreen, [InstallClicked(addon), FileChosen(true, Some(uri))]).requests == [addon.downloadUrl, uri]
    ensures var s := Run(InitialScreen, [InstallClicked(addon), FileChosen(true, Some(uri)), InstallSucceeded(true, true)]);
            !s.inProgress && Outstanding(s) == 1
  {
    var s1 := Step(InitialScreen, InstallClicked(addon));
    var s2 := Step(s1, FileChosen(true, Some(uri)));
    var s3 := Step(s2, InstallSucceeded(true, true));
    assert Run(s3, []) == s3;
    assert [InstallClicked(addon), FileChosen(true, Some(uri)), InstallSucceeded(true, true)][1..] ==
           [FileChosen(true, Some(uri)), InstallSucceeded(true, true)];
    assert [FileChosen(true, Some(uri)), InstallSucceeded(true, true)][1..] == [InstallSucceeded(true, true)];
    assert Run(s2, [InstallSucceeded(true, true)]) == Run(s3, []);
    assert Run(s1, [FileChosen(true, Some(uri))]) == Run(s2, []);
  }

  /**
   * An answer that arrives after the fragment was detached leaves the flag
   * raised: were the same instance attached again, its install clicks would
   * be ignored. A re-created screen is a new instance whose flag starts
   * cleared.
   */
  lemma DetachedAnswerKeepsFlag(s: ScreenState, addon: Addon)
    requires s.inProgress && !s.crashed
    ensures var t := Step(s, InstallSucceeded(false, true));
            t.inProgress && Step(t, InstallClicked(addon)) == t
  {
  }

  /**
   * As written, the callbacks guard the rebind with `view?.let` and then reach
   * the overlay through `requireView()`: an attached fragment without a view
   * throws. The success callback has cleared the flag by then; the error
   * callback has not, and the raised flag is never cleared.
   */
  lemma CallbacksWithoutViewCrash(addon: Addon)
    ensures Step(InitialScreen, Start(false)).crashed
    ensures var s := Step(InitialScreen, InstallClicked(addon));
            var t := Step(s, InstallSucceeded(true, false));
            t.crashed && !t.inProgress
    ensures var s := Step(InitialScreen, InstallClicked(addon));
            var t := Step(s, InstallFailed(true, false));
            t.crashed && t.inProgress && Outstanding(t) == 0 && !Serialised(t)
  {
  }

  /**
   * The callbacks as evidently intended: every use of the view is guarded
   * like the rebind, so a fragment without a view skips the view work and
   * still clears the flag.
   */
  function StepGuarded(s: ScreenState, e: ScreenEvent): (t: ScreenState)
    ensures FindsView(e) ==> t == Step(s, e)
    ensures s.crashed ==> t == s
    ensures !s.crashed ==> !t.crashed
    ensures !s.crashed && (e.InstallSucceeded? || e.InstallFailed?) ==>
              t.answered == s.answered + 1 && t.requests == s.requests && (e.attached ==> !t.inProgress)
  {
    if s.crashed || FindsView(e) then Step(s, e)
    else
      match e
      case InstallSucceeded(_, _) => s.(answered := s.answered + 1, inProgress := false)
      case InstallFailed(_, _) => s.(answered := s.answered + 1, inProgress := false)
      case _ => s
  }

  function RunGuarded(s: ScreenState, events: seq<ScreenEvent>): (t: ScreenState)
    ensures s.requests <= t.requests && s.answered <= t.answered
    decreases |events|
  {
    if events == [] then s else RunGuarded(StepGuarded(s, events[0]), events[1..])
  }

  /** A list-only run under the guarded callbacks; the view may be gone at any point. */
  predicate GuardedListOnlyRun(s: ScreenState, events: seq<ScreenEvent>)
    decreases |events|
  {
    events == [] || (ListOnly(s, events[0]) && GuardedListOnlyRun(StepGuarded(s, events[0]), events[1..]))
  }

  /** With the guarded callbacks the list installs stay serialised whether or not the view exists. */
  lemma {:induction false} GuardedListInstallsAreSerialised(s: ScreenState, events: seq<ScreenEvent>)
    requires Serialised(s) && GuardedListOnlyRun(s, events)
    ensures Serialised(RunGuarded(s, events))
    decreases |events|
  {
    if events != [] {
      assert Serialised(StepGuarded(s, events[0]));
      GuardedListInstallsAreSerialised(StepGuarded(s, events[0]), events[1..]);
    }
  }

  /** The fragment. */
  class AddonsFragment {
    var isInstallationInProgress: bool
    var overlayVisible: bool
    var listBindings: nat
    /** URLs handed to the add-on manager, in order. */
    var installRequests: seq<string>
    /** How many of those requests the manager has answered. */
    var answered: nat
    /** The details screens started, in order. */
    var launched: seq<Details>
    /** Whether a callback has thrown; a fragment that threw is gone with its process. */
    var crashed: bool

    constructor ()
      ensures State() == InitialScreen
    {
      isInstallationInProgress, overlayVisible, listBindings, installRequests, answered := false, false, 0, [], 0;
      launched, crashed := [], false;
    }

    function State(): ScreenState
      reads this
    {
      ScreenState(isInstallationInProgress, overlayVisible, listBindings, installRequests, answered, launched, crashed)
    }

    /** `bindRecyclerView`: the list is bound again from the manager's add-ons. */
    method BindRecyclerView()
      modifies this
      ensures State() == old(State()).(listBindings := old(listBindings) + 1)
    {
      listBindings := listBindings + 1;
    }

    /** `onStart`: rebind the list when there is a view, then hide the overlay, which needs the view. */
    method OnStart(hasView: bool)
      requires !crashed
      modifies this
      ensures State() == Step(old(State()), Start(hasView))
      ensures crashed <==> !hasView
    {
      if hasView {
        BindRecyclerView();
      }
      if !hasView {
        crashed := true;
        return;
      }
      overlayVisible := false;
    }

    /** `onAddonItemClicked`: start the details screen for the add-on; no guard. */
    method OnAddonItemClicked(addon: Addon)
      requires !crashed
      modifies this
      ensures State() == Step(old(State()), ItemClicked(addon))
    {
      if addon.installed {
        launched := launched + [Details(InstalledAddonDetails, addon)];
      } else {
        launched := launched + [Details(AddonDetails, addon)];
      }
    }

    /** The `installAddon` lambda and the first half of `installAddonFromFile`. */
    method InstallAddon(url: string)
      modifies this
      ensures State() == BeginInstall(old(State()), url)
    {
      overlayVisible := true;
      isInstallationInProgress := true;
      installRequests := installRequests + [url];
    }

    /** `onInstallAddonButtonClicked`: ignored while an install runs. */
    method OnInstallAddonButtonClicked(addon: Addon)
      requires !crashed
      modifies this
      ensures State() == Step(old(State()), InstallClicked(addon))
      ensures old(isInstallationInProgress) ==> State() == old(State())
    {
      if isInstallationInProgress {
        return;
      }
      InstallAddon(addon.downloadUrl);
    }

    /** The file-picker result: an accepted result with a URI installs from it, with no guard. */
    method OnFileChosen(resultOk: bool, uri: Option<string>)
      requires !crashed
      modifies this
      ensures State() == Step(old(State()), FileChosen(resultOk, uri))
    {
      if resultOk && uri.Some? {
        InstallAddon(uri.value);
      }
    }

    /**
     * The success callback of either install, run only while the fragment is
     * attached: clear the flag, rebind if there is a view, hide the overlay,
     * which throws when there is none.
     */
    method OnInstallSucceeded(attached: bool, hasView: bool)
      requires !crashed
      modifies this
      ensures State() == Step(old(State()), InstallSucceeded(attached, hasView))
      ensures crashed <==> attached && !hasView
    {
      answered := answered + 1;
      if attached {
        isInstallationInProgress := false;
        if hasView {
          BindRecyclerView();
        }
        if !hasView {
          crashed := true;
          return;
        }
        overlayVisible := false;
      }
    }

    /**
     * The error callback of either install, run only while the fragment is
     * attached: hide the overlay, which throws when there is no view, then
     * clear the flag; the list is not rebound.
     */
    method OnInstallFailed(attached: bool, hasView: bool)
      requires !crashed
      modifies this
      ensures State() == Step(old(State()), InstallFailed(attached, hasView))
      ensures crashed <==> attached && !hasView
    {
      answered := answered + 1;
      if attached {
        if !hasView {
          crashed := true;
          return;
        }
        overlayVisible := false;
        isInstallationInProgress := false;
      }
    }
  }
}

=== FILE: base_browser_fragment.dfy ===
/**
 * The decisions of the browser fragment's base class: the feature chains that
 * may consume a back press or an activity result, automatic installation of a
 * downloaded `.xpi` add-on, the permission-result mapping handed to features,
 * and leaving full screen when picture-in-picture ends.
 */
module BaseBrowserFragment {
  import opened Wrappers
  import opened Text

  /** The selected tab, reduced to what these decisions read. */
  datatype Tab = Tab(url: string, private: bool, canGoBack: bool, canGoForward: bool, fullScreen: bool)

  /** The view-bound features that take part in a handler chain. */
  datatype Feature =
    | FullScreen | FindInPage | Toolbar | Session | LastTab   // back-press handlers
    | WebAuthn | Prompts                                     // activity-result handlers
    | ReaderView                                             // added by the browser fragment

  /** The back-press chain, in order. */
  const BackButtonHandlers: seq<Feature> := [FullScreen, FindInPage, Toolbar, Session, LastTab]

  /** The activity-result chain, in order. */
  const ActivityResultHandlers: seq<Feature> := [WebAuthn, Prompts]

  /** Which features were asked, in order, and whether one of them consumed the event. */
  datatype HandlerRun = HandlerRun(consumed: bool, asked: seq<Feature>)

  /**
   * `handlers.any { it.handle() }`: the handlers are asked in order until one
   * consumes the event; `consumes` is each feature's answer.
   */
  function AskHandlers(handlers: seq<Feature>, consumes: Feature -> bool): (r: HandlerRun)
    ensures r.consumed <==> exists i :: 0 <= i < |handlers| && consumes(handlers[i])
    ensures |r.asked| <= |handlers| && r.asked == handlers[..|r.asked|]
    ensures forall i :: 0 <= i < |r.asked| - 1 ==> !consumes(r.asked[i])
    ensures r.consumed ==> |r.asked| > 0 && consumes(r.asked[|r.asked| - 1])
    ensures !r.consumed ==> r.asked == handlers
  {
    if handlers == [] then HandlerRun(false, [])
    else if consumes(handlers[0]) then HandlerRun(true, [handlers[0]])
    else
      var rest := AskHandlers(handlers[1..], consumes);
      assert forall i :: 0 <= i < |rest.asked| ==> handlers[1..][i] == handlers[i + 1];
      assert rest.consumed ==> consumes(handlers[|rest.asked|]);
      assert (exists i :: 0 <= i < |handlers| && consumes(handlers[i])) ==> rest.consumed;
      HandlerRun(rest.consumed, [handlers[0]] + rest.asked)
  }

  /** `onBackPressed` of the base fragment. */
  function BaseOnBackPressed(consumes: Feature -> bool): (r: HandlerRun)
    ensures r.consumed <==> consumes(FullScreen) || consumes(FindInPage) || consumes(Toolbar) || consumes(Session) || consumes(LastTab)
    ensures |r.asked| > 0 && r.asked[0] == FullScreen
  {
    AskHandlers(BackButtonHandlers, consumes)
  }

  /** `onActivityResult` of the base fragment. */
  function BaseOnActivityResult(consumes: Feature -> bool): (r: HandlerRun)
    ensures r.consumed <==> consumes(WebAuthn) || consumes(Prompts)
    ensures r.asked == if consumes(WebAuthn) then [WebAuthn] else [WebAuthn, Prompts]
  {
    AskHandlers(ActivityResultHandlers, consumes)
  }

  /** A full-screen page that is not consumed stops the chain at the first handler. */
  lemma FullScreenAskedFirst(consumes: Feature -> bool)
    ensures BaseOnBackPressed(consumes).asked[0] == FullScreen
    ensures consumes(FullScreen) ==> BaseOnBackPressed(consumes) == HandlerRun(true, [FullScreen])
  {
  }

  /** When no feature consumes the press, all five are asked, in order. */
  lemma UnconsumedBackAsksAll(consumes: Feature -> bool)
    requires forall f :: !consumes(f)
    ensures BaseOnBackPressed(consumes) == HandlerRun(false, BackButtonHandlers)
  {
  }

  /** The states a download can stop in. */
  datatype DownloadStatus = Initiated | Running | Paused | Cancelled | Failed | Completed

  const FileScheme := "file://"

  /**
   * `onDownloadStopped`: the URL of the add-on install that is started, if any.
   * Only a completed download whose file name ends in ".xpi", in any case, is installed.
   */
  function OnDownloadStopped(status: DownloadStatus, fileName: Option<string>, filePath: string): (install: Option<string>)
    ensures install.Some? <==>
              status == Completed && fileName.Some? && EndsWithIgnoreCase(fileName.value, ".xpi")
    ensures install.Some? ==> StartsWith(install.value, FileScheme) && install.value[|FileScheme|..] == filePath
  {
    if status != Completed then None
    else if fileName.Some? && EndsWithIgnoreCase(fileName.value, ".xpi") then
      assert (FileScheme + filePath)[..|FileScheme|] == FileScheme;
      Some(FileScheme + filePath)
    else None
  }

  /** A completed download is installed exactly when the lower-cased end of its name is ".xpi". */
  lemma XpiDecisionByLowercase(fileName: string, filePath: string)
    ensures OnDownloadStopped(Completed, Some(fileName), filePath).Some? <==>
              |fileName| >= 4 && Lowercase(fileName[|fileName| - 4..]) == ".xpi"
  {
    EndsWithIgnoreCaseLower(fileName, ".xpi");
  }

  /** Upper-case and mixed-case extensions are accepted; a missing file name never is. */
  lemma XpiDecisionExamples(filePath: string)
    ensures OnDownloadStopped(Completed, Some("addon.XPI"), filePath) == Some("file://" + filePath)
    ensures OnDownloadStopped(Completed, Some("addon.Xpi"), filePath).Some?
    ensures OnDownloadStopped(Completed, Some("addon.zip"), filePath).None?
    ensures OnDownloadStopped(Completed, None, filePath).None?
    ensures OnDownloadStopped(Failed, Some("addon.xpi"), filePath).None?
  {
    XpiDecisionByLowercase("addon.XPI", filePath);
    assert "addon.XPI"[5..] == ".XPI";
    XpiDecisionByLowercase("addon.Xpi", filePath);
    assert "addon.Xpi"[5..] == ".Xpi";
    XpiDecisionByLowercase("addon.zip", filePath);
    assert "addon.zip"[5..] == ".zip";
  }

  /** Android's `PackageManager` result codes. */
  const PERMISSION_GRANTED := 0
  const PERMISSION_DENIED := -1

  /** The permission names of a permission-request result, in the map's order. */
  function Permissions(results: seq<(string, bool)>): (names: seq<string>)
    ensures |names| == |results| && forall i :: 0 <= i < |results| ==> names[i] == results[i].0
  {
    seq(|results|, i requires 0 <= i < |results| => results[i].0)
  }

  /** The grant results handed to a feature: one Android code per permission, in the same order. */
  function GrantResults(results: seq<(string, bool)>): (codes: seq<int>)
    ensures |codes| == |results|
    ensures forall i :: 0 <= i < |results| ==> codes[i] == PERMISSION_GRANTED || codes[i] == PERMISSION_DENIED
  {
    seq(|results|, i requires 0 <= i < |results| => if results[i].1 then PERMISSION_GRANTED else PERMISSION_DENIED)
  }

  /** How a feature reads the two arrays back. */
  function ReadPermissionResults(names: seq<string>, codes: seq<int>): (results: seq<(string, bool)>)
    requires |names| == |codes|
    ensures |results| == |names|
    ensures forall i :: 0 <= i < |names| ==> results[i].0 == names[i] && (results[i].1 <==> codes[i] == PERMISSION_GRANTED)
  {
    seq(|names|, i requires 0 <= i < |names| => (names[i], codes[i] == PERMISSION_GRANTED))
  }

  /** The two arrays lose nothing: the feature reads back exactly the map's entries. */
  lemma PermissionResultsRoundTrip(results: seq<(string, bool)>)
    ensures ReadPermissionResults(Permissions(results), GrantResults(results)) == results
  {
  }

  /**
   * What `onPictureInPictureModeChanged` does: `backPress` is the run of the
   * fragment's own (overridable) `onBackPressed`, if it was called, and
   * `leftFullScreen` says whether `fullScreenChanged(false)` restored the
   * toolbar and left immersive mode.
   */
  datatype PictureInPictureEffect = PictureInPictureEffect(backPress: Option<HandlerRun>, leftFullScreen: bool)

  /**
   * `onPictureInPictureModeChanged`: when picture-in-picture ends while the
   * selected tab is in full screen, the fragment presses back through
   * `backChain`, its own back-press chain, and then leaves full screen,
   * whatever the press did. With no selected tab nothing happens.
   */
  function OnPictureInPictureModeChanged(
    enabled: bool, selectedTab: Option<Tab>, backChain: seq<Feature>, consumes: Feature -> bool
  ): (effect: PictureInPictureEffect)
    ensures effect.leftFullScreen <==> !enabled && selectedTab.Some? && selectedTab.value.fullScreen
    ensures effect.backPress.Some? <==> effect.leftFullScreen
    ensures effect.backPress.Some? ==> effect.backPress.value == AskHandlers(backChain, consumes)
  {
    var fullScreenMode := if selectedTab.Some? then selectedTab.value.fullScreen else false;
    if !enabled && fullScreenMode then PictureInPictureEffect(Some(AskHandlers(backChain, consumes)), true)
    else PictureInPictureEffect(None, false)
  }

  /**
   * In the base fragment the press reaches the full-screen feature first, so
   * a full-screen feature that consumes it is the only handler asked.
   */
  lemma BasePictureInPictureAsksFullScreen(tab: Tab, consumes: Feature -> bool)
    requires tab.fullScreen
    ensures var effect := OnPictureInPictureModeChanged(false, Some(tab), BackButtonHandlers, consumes);
            effect.leftFullScreen && effect.backPress.value.asked[0] == FullScreen &&
            (consumes(FullScreen) ==> effect.backPress.value == HandlerRun(true, [FullScreen]))
  {
    FullScreenAskedFirst(consumes);
  }
}

=== FILE: browser_activity.dfy ===
/**
 * The browser's main activity: the "press back twice to exit" callback, the
 * fragment handler chains for back presses and activity results, the Baidu
 * default-engine pick at start-up, and the routing of URLs handed to the
 * activity into session and tab use cases.
 */
module BrowserActivity {
  import opened Wrappers
  import opened Seqs
  import opened Text
  import opened SearchStore
  import SearchEngineList

  /** Two unconsumed presses at most this many milliseconds apart exit. */
  const ExitWindowMillis := 3000

  /** A fragment of the activity, seen from a handler chain: a handler answers whether it consumed the event. */
  datatype Fragment = PlainFragment | Handler(consumes: bool)

  predicate Consumes(f: Fragment) {
    f.Handler? && f.consumes
  }

  /**
   * The `fragments.forEach { if (it is Handler && it.handle()) return }` loop:
   * the index of the first fragment that is a handler and consumes the event.
   * Handlers after it are not asked.
   */
  method FirstConsumer(fragments: seq<Fragment>) returns (r: Option<nat>)
    ensures r == FirstWhere(Consumes, fragments)
    ensures r.Some? ==> r.value < |fragments| && Consumes(fragments[r.value])
    ensures r.None? <==> forall j :: 0 <= j < |fragments| ==> !Consumes(fragments[j])
  {
    var i := 0;
    while i < |fragments|
      invariant 0 <= i <= |fragments|
      invariant forall j :: 0 <= j < i ==> !Consumes(fragments[j])
    {
      if fragments[i].Handler? && fragments[i].consumes {
        return Some(i);
      }
      i := i + 1;
    }
    return None;
  }

  /** The fields of the back-press callback. */
  datatype CallbackState = CallbackState(isPromptShown: bool, lastBackPressTime: int, isEnabled: bool)

  /** The callback as registered: enabled, no prompt, time 0. */
  const InitialCallback := CallbackState(false, 0, true)

  /** What a back press did. */
  datatype BackOutcome =
    | HandledByFragment(index: nat)   // a fragment's `onBackPressed` consumed it
    | ShowPrompt                      // "press again to exit" shown
    | Exit                            // callback disabled and the press re-dispatched
    | StayDisabled                    // within the window, but the callback was already disabled
    | ResetPrompt                     // too late: the prompt is forgotten
    | SystemBack                      // the callback is disabled, so the dispatcher does not call it

  /** One call of `handleOnBackPressed`, given the first consuming fragment and the clock. */
  function BackStep(s: CallbackState, consumer: Option<nat>, now: int): (r: (CallbackState, BackOutcome))
    ensures consumer.Some? ==> r == (s, HandledByFragment(consumer.value))
    ensures r.1 == Exit <==>
              consumer.None? && s.isPromptShown && now - s.lastBackPressTime <= ExitWindowMillis && s.isEnabled
    ensures r.0.isEnabled <==> s.isEnabled && r.1 != Exit
  {
    if consumer.Some? then (s, HandledByFragment(consumer.value))
    else if !s.isPromptShown then (s.(isPromptShown := true, lastBackPressTime := now), ShowPrompt)
    else if now - s.lastBackPressTime <= ExitWindowMillis then
      if s.isEnabled then (s.(isEnabled := false), Exit) else (s, StayDisabled)
    else (s.(isPromptShown := false), ResetPrompt)
  }

  /** A back press: the activity's fragments at that moment and the clock reading. */
  datatype Press = Press(fragments: seq<Fragment>, now: int)

  /** The dispatcher calls the callback only while it is enabled. */
  function Dispatch(s: CallbackState, p: Press): (r: (CallbackState, BackOutcome))
    ensures !s.isEnabled ==> r == (s, SystemBack)
    ensures r.1 == Exit ==> s.isEnabled && !r.0.isEnabled
    ensures r.0.isEnabled ==> s.isEnabled
  {
    if !s.isEnabled then (s, SystemBack) else BackStep(s, FirstWhere(Consumes, p.fragments), p.now)
  }

  /** A series of presses, in order: the final callback state and each press's outcome. */
  function Run(s: CallbackState, presses: seq<Press>): (r: (CallbackState, seq<BackOutcome>))
    ensures |r.1| == |presses|
    decreases |presses|
  {
    if presses == [] then (s, [])
    else
      var step := Dispatch(s, presses[0]);
      var rest := Run(step.0, presses[1..]);
      (rest.0, [step.1] + rest.1)
  }

  /** The number of exits among the outcomes. */
  function Exits(outcomes: seq<BackOutcome>): nat {
    if outcomes == [] then 0 else (if outcomes[0] == Exit then 1 else 0) + Exits(outcomes[1..])
  }

  /** Once the callback is disabled, no later press exits and it stays disabled. */
  lemma {:induction false} DisabledNeverExits(s: CallbackState, presses: seq<Press>)
    requires !s.isEnabled
    ensures Exits(Run(s, presses).1) == 0 && !Run(s, presses).0.isEnabled
    decreases |presses|
  {
    if presses != [] {
      DisabledNeverExits(s, presses[1..]);
    }
  }

  /** Whatever the presses, the callback exits at most once, and after an exit it is disabled. */
  lemma {:induction false} ExitsAtMostOnce(s: CallbackState, presses: seq<Press>)
    ensures Exits(Run(s, presses).1) <= 1
    ensures Exits(Run(s, presses).1) == 1 ==> !Run(s, presses).0.isEnabled
    decreases |presses|
  {
    if presses != [] {
      var step := Dispatch(s, presses[0]);
      if step.1 == Exit {
        DisabledNeverExits(step.0, presses[1..]);
      } else {
        ExitsAtMostOnce(step.0, presses[1..]);
      }
    }
  }

  /** A fragment-consumed press changes nothing, at any state. */
  lemma ConsumedPressKeepsState(s: CallbackState, p: Press)
    requires s.isEnabled && FirstWhere(Consumes, p.fragments).Some?
    ensures Dispatch(s, p).0 == s && Dispatch(s, p).1.HandledByFragment?
  {
  }

  lemma RunCons(s: CallbackState, p: Press, ps: seq<Press>)
    ensures Run(s, [p] + ps) ==
              (Run(Dispatch(s, p).0, ps).0, [Dispatch(s, p).1] + Run(Dispatch(s, p).0, ps).1)
  {
    assert ([p] + ps)[0] == p && ([p] + ps)[1..] == ps;
  }

  lemma RunOne(s: CallbackState, p: Press)
    ensures Run(s, [p]) == (Dispatch(s, p).0, [Dispatch(s, p).1])
  {
    RunCons(s, p, []);
    assert [p] + [] == [p];
    assert Run(Dispatch(s, p).0, []) == (Dispatch(s, p).0, []);
    assert [Dispatch(s, p).1] + [] == [Dispatch(s, p).1];
  }

  /** From the initial callback, two unconsumed presses at most 3000 ms apart: prompt, then exit. */
  lemma QuickSecondPressExits(t1: int, t2: int)
    requires t2 - t1 <= ExitWindowMillis
    ensures Run(InitialCallback, [Press([], t1), Press([], t2)]).1 == [ShowPrompt, Exit]
    ensures !Run(InitialCallback, [Press([], t1), Press([], t2)]).0.isEnabled
  {
    var s1 := CallbackState(true, t1, true);
    assert FirstWhere(Consumes, []) == None;
    assert Dispatch(InitialCallback, Press([], t1)) == (s1, ShowPrompt);
    assert Dispatch(s1, Press([], t2)) == (s1.(isEnabled := false), Exit);
    RunOne(s1, Press([], t2));
    RunCons(InitialCallback, Press([], t1), [Press([], t2)]);
  }

  /**
   * From the initial callback, a second press more than 3000 ms later only
   * forgets the prompt (time unchanged), so a third press shows it again.
   */
  lemma SlowSecondPressResets(t1: int, t2: int, t3: int)
    requires t2 - t1 > ExitWindowMillis
    ensures Run(InitialCallback, [Press([], t1), Press([], t2), Press([], t3)]).1 == [ShowPrompt, ResetPrompt, ShowPrompt]
    ensures Run(InitialCallback, [Press([], t1), Press([], t2)]).0 == CallbackState(false, t1, true)
  {
    var s1 := CallbackState(true, t1, true);
    var s2 := CallbackState(false, t1, true);
    var s3 := CallbackState(true, t3, true);
    assert FirstWhere(Consumes, []) == None;
    assert Dispatch(InitialCallback, Press([], t1)) == (s1, ShowPrompt);
    assert Dispatch(s1, Press([], t2)) == (s2, ResetPrompt);
    assert Dispatch(s2, Press([], t3)) == (s3, ShowPrompt);
    RunOne(s2, Press([], t3));
    RunCons(s1, Press([], t2), [Press([], t3)]);
    assert [Press([], t2)] + [Press([], t3)] == [Press([], t2), Press([], t3)];
    RunCons(InitialCallback, Press([], t1), [Press([], t2), Press([], t3)]);
    assert [Press([], t1)] + [Press([], t2), Press([], t3)] == [Press([], t1), Press([], t2), Press([], t3)];
    RunOne(s1, Press([], t2));
    RunCons(InitialCallback, Press([], t1), [Press([], t2)]);
  }

  /** The `OnBackPressedCallback` registered in `onCreate`. */
  class BackPressCallback {
    var isPromptShown: bool
    var lastBackPressTime: int
    var isEnabled: bool

    constructor ()
      ensures isPromptShown == InitialCallback.isPromptShown
      ensures lastBackPressTime == InitialCallback.lastBackPressTime
      ensures isEnabled == InitialCallback.isEnabled
    {
      isPromptShown, lastBackPressTime, isEnabled := false, 0, true;
    }

    function State(): CallbackState
      reads this
    {
      CallbackState(isPromptShown, lastBackPressTime, isEnabled)
    }

    /** `handleOnBackPressed`, at clock reading `now`. */
    method HandleOnBackPressed(fragments: seq<Fragment>, now: int) returns (outcome: BackOutcome)
      modifies this
      ensures (State(), outcome) == BackStep(old(State()), FirstWhere(Consumes, fragments), now)
      ensures FirstWhere(Consumes, fragments).Some? ==> State() == old(State())
      ensures FirstWhere(Consumes, fragments).None? && !old(isPromptShown) ==>
                isPromptShown && lastBackPressTime == now && isEnabled == old(isEnabled) && outcome == ShowPrompt
      ensures FirstWhere(Consumes, fragments).None? && old(isPromptShown) &&
              now - old(lastBackPressTime) <= ExitWindowMillis ==>
                !isEnabled && isPromptShown && lastBackPressTime == old(lastBackPressTime) &&
                (outcome == Exit <==> old(isEnabled))
      ensures FirstWhere(Consumes, fragments).None? && old(isPromptShown) &&
              now - old(lastBackPressTime) > ExitWindowMillis ==>
                !isPromptShown && lastBackPressTime == old(lastBackPressTime) && isEnabled == old(isEnabled) &&
                outcome == ResetPrompt
    {
      var consumer := FirstConsumer(fragments);
      if consumer.Some? {
        return HandledByFragment(consumer.value);
      }
      if !isPromptShown {
        isPromptShown := true;
        lastBackPressTime := now;
        outcome := ShowPrompt;
      } else {
        if now - lastBackPressTime <= ExitWindowMillis {
          if isEnabled {
            isEnabled := false;
            outcome := Exit;
          } else {
            outcome := StayDisabled;
          }
        } else {
          isPromptShown := false;
          outcome := ResetPrompt;
        }
      }
    }
  }

  /** The name test of the start-up engine pick: contains "百度", or "baidu" once lower-cased. */
  predicate IsBaidu(e: SearchEngine) {
    Contains(e.name, "百度") || Contains(Lowercase(e.name), "baidu")
  }

  /** When no engine id "baidu" is installed, the provisioned list offers a Baidu candidate. */
  lemma ProvisionedStoreHasBaidu(s: seq<SearchEngine>)
    requires !HasId(s, "baidu")
    ensures FirstOrNone(IsBaidu, SearchEngineList.Provision(s)).Some?
  {
    var baidu := SearchEngineList.Catalogue[1];
    assert baidu.id == "baidu" && baidu.name == "百度";
    assert OccursAt(baidu.name, "百度", 0);
    SearchEngineList.ProvisionAppendsMissing(s);
    assert baidu in Filter(AbsentFrom(s), SearchEngineList.Catalogue);
    assert baidu in SearchEngineList.Provision(s);
  }

  /** A use case the activity invokes on the browser's session and tab use cases. */
  datatype UseCaseCall =
    | LoadUrl(url: string)
    | AddTab(url: string, selectTab: bool, private: bool)

  /** The session and tab use cases, seen as the calls they receive. */
  class UseCases {
    var calls: seq<UseCaseCall>

    constructor ()
      ensures calls == []
    {
      calls := [];
    }

    method Invoke(c: UseCaseCall)
      modifies this
      ensures calls == old(calls) + [c]
    {
      calls := calls + [c];
    }
  }

  class BrowserActivity {
    const store: EngineStore
    const useCases: UseCases
    /** The `const_nav_url` string resource. */
    const navUrl: string

    constructor (store: EngineStore, useCases: UseCases, navUrl: string)
      ensures this.store == store && this.useCases == useCases && this.navUrl == navUrl
    {
      this.store := store;
      this.useCases := useCases;
      this.navUrl := navUrl;
    }

    /**
     * Start-up engine pick: with no user-selected engine, the first installed
     * engine whose name matches `IsBaidu` is selected; otherwise nothing changes.
     */
    method SelectBaiduIfUnset()
      modifies store
      ensures store.engines == old(store.engines) && store.hidden == old(store.hidden)
      ensures store.available == old(store.available)
      ensures old(store.userSelectedId).Some? ==> store.userSelectedId == old(store.userSelectedId)
      ensures old(store.userSelectedId).None? ==>
                match FirstOrNone(IsBaidu, store.engines)
                case None => store.userSelectedId == None
                case Some(e) => store.userSelectedId == Some(e.id)
    {
      if store.userSelectedId.None? {
        var baiduEngine := FirstOrNone(IsBaidu, store.engines);
        if baiduEngine.Some? {
          store.Select(baiduEngine.value);
        }
      }
    }

    /** The `EXTRA_URL` of the launching intent, if any, is loaded. */
    method LoadExtraUrl(extraUrl: Option<string>)
      modifies useCases
      ensures extraUrl.None? ==> useCases.calls == old(useCases.calls)
      ensures extraUrl.Some? ==> useCases.calls == old(useCases.calls) + [LoadUrl(extraUrl.value)]
    {
      if extraUrl.Some? {
        useCases.Invoke(LoadUrl(extraUrl.value));
      }
    }

    /** `onActivityResult`: offered to the fragments in order; `super` runs only if none consumed it. */
    method OnActivityResult(fragments: seq<Fragment>) returns (superCalled: bool)
      ensures superCalled <==> forall j :: 0 <= j < |fragments| ==> !Consumes(fragments[j])
    {
      var consumer := FirstConsumer(fragments);
      superCalled := consumer.None?;
    }

    /** `onNavigateToBrowser`: the navigation page is loaded only when no tab is open. */
    method OnNavigateToBrowser(tabsEmpty: bool)
      modifies useCases
      ensures tabsEmpty ==> useCases.calls == old(useCases.calls) + [LoadUrl(navUrl)]
      ensures !tabsEmpty ==> useCases.calls == old(useCases.calls)
    {
      if tabsEmpty {
        useCases.Invoke(LoadUrl(navUrl));
      }
    }

    /**
     * `openToBrowser`: nothing for a missing URL; with `newTab`, a new selected
     * tab with the given privacy; otherwise the URL is loaded in place.
     */
    method OpenToBrowser(url: Option<string>, newTab: bool, private: bool)
      modifies useCases
      ensures url.None? ==> useCases.calls == old(useCases.calls)
      ensures url.Some? && newTab ==> useCases.calls == old(useCases.calls) + [AddTab(url.value, true, private)]
      ensures url.Some? && !newTab ==> useCases.calls == old(useCases.calls) + [LoadUrl(url.value)]
    {
      if url.Some? {
        if newTab {
          useCases.Invoke(AddTab(url.value, true, private));
        } else {
          useCases.Invoke(LoadUrl(url.value));
        }
      }
    }

    /** `onNewIntent`: an `EXTRA_URL` opens in a new, selected, non-private tab. */
    method OnNewIntent(extraUrl: Option<string>)
      modifies useCases
      ensures extraUrl.None? ==> useCases.calls == old(useCases.calls)
      ensures extraUrl.Some? ==> useCases.calls == old(useCases.calls) + [AddTab(extraUrl.value, true, false)]
    {
      if extraUrl.Some? {
        OpenToBrowser(extraUrl, true, false);
      }
    }
  }
}

=== FILE: browser_fragment.dfy ===
/**
 * The browser fragment's bottom bar: the add-ons sheet (which extensions it
 * lists, in which order, and what selecting one does), where the add-on
 * button leads, when back and forward are enabled, and its back-press chain.
 */
module BrowserFragment {
  import opened Wrappers
  import opened Seqs
  import opened Text
  import opened BaseBrowserFragment

  /** An installed web extension, reduced to what the sheet reads; its name may be missing. */
  datatype Extension = Extension(
    id: string,
    name: Option<string>,
    enabled: bool,
    allowedInPrivateBrowsing: bool,
    isBuiltIn: bool,
    hasBrowserAction: bool,
    hasPageAction: bool)

  /** `a <= b` in Kotlin's `String.compareTo` order: lexicographic by character. */
  predicate LexLe(a: string, b: string)
    decreases |a|
  {
    if a == [] then true
    else if b == [] then false
    else if a[0] != b[0] then a[0] < b[0]
    else LexLe(a[1..], b[1..])
  }

  lemma {:induction false} LexLeTotal(a: string, b: string)
    ensures LexLe(a, b) || LexLe(b, a)
    decreases |a|
  {
    if a != [] && b != [] && a[0] == b[0] {
      LexLeTotal(a[1..], b[1..]);
    }
  }

  lemma {:induction false} LexLeTransitive(a: string, b: string, c: string)
    requires LexLe(a, b) && LexLe(b, c)
    ensures LexLe(a, c)
    decreases |a|
  {
    if a != [] && b != [] && c != [] && a[0] == b[0] && b[0] == c[0] {
      LexLeTransitive(a[1..], b[1..], c[1..]);
    }
  }

  /** `sortedBy`'s key order (`compareValues`): a missing name comes before every name. */
  predicate NameLe(a: Option<string>, b: Option<string>) {
    a.None? || (b.Some? && LexLe(a.value, b.value))
  }

  lemma NameLeTotal(a: Option<string>, b: Option<string>)
    ensures NameLe(a, b) || NameLe(b, a)
  {
    if a.Some? && b.Some? {
      LexLeTotal(a.value, b.value);
    }
  }

  lemma NameLeTransitive(a: Option<string>, b: Option<string>, c: Option<string>)
    requires NameLe(a, b) && NameLe(b, c)
    ensures NameLe(a, c)
  {
    if a.Some? {
      LexLeTransitive(a.value, b.value, c.value);
    }
  }

  predicate SortedByName(s: seq<Extension>) {
    forall i, j :: 0 <= i < j < |s| ==> NameLe(s[i].name, s[j].name)
  }

  /** `e` placed before the first element whose name is greater than its own. */
  function InsertByName(e: Extension, s: seq<Extension>): (r: seq<Extension>)
    ensures multiset(r) == multiset(s) + multiset{e}
  {
    if s == [] then [e]
    else if !NameLe(s[0].name, e.name) then [e] + s
    else
      assert s == [s[0]] + s[1..];
      [s[0]] + InsertByName(e, s[1..])
  }

  lemma {:induction false} InsertByNameSorted(e: Extension, s: seq<Extension>)
    requires SortedByName(s)
    ensures SortedByName(InsertByName(e, s))
  {
    if s == [] {
    } else if !NameLe(s[0].name, e.name) {
      NameLeTotal(s[0].name, e.name);
      forall j | 0 <= j < |s| ensures NameLe(e.name, s[j].name) {
        if j > 0 {
          NameLeTransitive(e.name, s[0].name, s[j].name);
        }
      }
    } else {
      assert SortedByName(s[1..]);
      InsertByNameSorted(e, s[1..]);
      var r := InsertByName(e, s);
      forall j | 0 < j < |r| ensures NameLe(s[0].name, r[j].name) {
        assert r[j] in multiset(InsertByName(e, s[1..]));
        assert r[j] == e || r[j] in multiset(s[1..]);
        if r[j] != e {
          assert r[j] in s[1..];
        }
      }
    }
  }

  /** Kotlin's `sortedBy { it.name }`, as an insertion sort on the name key. */
  function SortByName(s: seq<Extension>): (r: seq<Extension>)
    ensures multiset(r) == multiset(s)
  {
    if s == [] then []
    else
      assert s == s[..|s| - 1] + [s[|s| - 1]];
      InsertByName(s[|s| - 1], SortByName(s[..|s| - 1]))
  }

  lemma {:induction false} SortByNameSorted(s: seq<Extension>)
    ensures SortedByName(SortByName(s))
  {
    if s != [] {
      SortByNameSorted(s[..|s| - 1]);
      InsertByNameSorted(s[|s| - 1], SortByName(s[..|s| - 1]));
    }
  }

  /** A filtered sorted list is sorted. */
  lemma FilterKeepsSorted(p: Extension -> bool, s: seq<Extension>)
    requires SortedByName(s)
    ensures SortedByName(Filter(p, s))
  {
    var r := Filter(p, s);
    forall i, j | 0 <= i < j < |r| ensures NameLe(r[i].name, r[j].name) {
      FilterIsSubsequence(p, s, i, j);
    }
  }

  predicate IsEnabled(e: Extension) { e.enabled }

  predicate IsNotBuiltIn(e: Extension) { !e.isBuiltIn }

  /** The test kept by `filterNot { !it.allowedInPrivateBrowsing && tab?.content?.private == true }`. */
  function AllowedInTab(tabPrivate: bool): Extension -> bool {
    (e: Extension) => !(!e.allowedInPrivateBrowsing && tabPrivate)
  }

  /** `tab?.content?.private == true`. */
  function TabIsPrivate(tab: Option<Tab>): bool {
    tab.Some? && tab.value.private
  }

  /** The list that the `forEach` of `showAddonsSheet` walks: enabled, allowed in the tab, sorted by name. */
  function SheetCandidates(extensions: seq<Extension>, tab: Option<Tab>): seq<Extension> {
    SortByName(Filter(AllowedInTab(TabIsPrivate(tab)), Filter(IsEnabled, extensions)))
  }

  /** An extension the sheet lists. */
  predicate ShownInSheet(e: Extension, tab: Option<Tab>) {
    e.enabled && !e.isBuiltIn && (e.allowedInPrivateBrowsing || !TabIsPrivate(tab))
  }

  /** The sheet's list holds exactly the extensions it should show, sorted by name. */
  lemma SheetListSpec(extensions: seq<Extension>, tab: Option<Tab>)
    ensures forall e :: e in Filter(IsNotBuiltIn, SheetCandidates(extensions, tab)) <==> e in extensions && ShownInSheet(e, tab)
    ensures SortedByName(Filter(IsNotBuiltIn, SheetCandidates(extensions, tab)))
  {
    var allowed := Filter(AllowedInTab(TabIsPrivate(tab)), Filter(IsEnabled, extensions));
    var candidates := SheetCandidates(extensions, tab);
    assert candidates == SortByName(allowed);
    forall e ensures e in candidates <==> e in allowed {
      assert e in candidates <==> e in multiset(candidates);
      assert e in allowed <==> e in multiset(allowed);
    }
    SortByNameSorted(allowed);
    FilterKeepsSorted(IsNotBuiltIn, candidates);
  }

  /**
   * `showAddonsSheet`: the candidates are walked in order and each one that is
   * not built in is added. The list holds exactly the extensions that are
   * enabled, not built in and allowed in the selected tab, sorted by name.
   */
  method VisibleExtensions(extensions: seq<Extension>, tab: Option<Tab>) returns (visible: seq<Extension>)
    ensures visible == Filter(IsNotBuiltIn, SheetCandidates(extensions, tab))
    ensures forall e :: e in visible <==> e in extensions && ShownInSheet(e, tab)
    ensures SortedByName(visible)
  {
    var candidates := SheetCandidates(extensions, tab);
    visible := [];
    for i := 0 to |candidates|
      invariant visible == Filter(IsNotBuiltIn, candidates[..i])
    {
      FilterSnoc(IsNotBuiltIn, candidates, i);
      var extension := candidates[i];
      if !extension.isBuiltIn {
        visible := visible + [extension];
      }
    }
    assert candidates[..|candidates|] == candidates;
    SheetListSpec(extensions, tab);
  }

  /** With no selected tab, the private-browsing test removes nothing. */
  lemma NoTabNoPrivateFilter(extensions: seq<Extension>)
    ensures Filter(AllowedInTab(TabIsPrivate(None)), Filter(IsEnabled, extensions)) == Filter(IsEnabled, extensions)
    ensures forall e :: ShownInSheet(e, None) <==> e.enabled && !e.isBuiltIn
  {
    FilterAllMatch(AllowedInTab(TabIsPrivate(None)), Filter(IsEnabled, extensions));
  }

  /** A private tab hides exactly the extensions not allowed in private browsing. */
  lemma PrivateTabHidesDisallowed(e: Extension, tab: Tab)
    requires tab.private && e.enabled && !e.isBuiltIn
    ensures ShownInSheet(e, Some(tab)) <==> e.allowedInPrivateBrowsing
  {
  }

  /** The id the sheet uses for its "manage add-ons" entry. */
  const AddonsManagerId := "builtin://addons_manager"

  /** What selecting an entry of the sheet does. */
  datatype AddonSelection =
    | OpenAddonsManager
    | ClickBrowserAction(id: string)
    | ClickPageAction(id: string)
    | OpenInstalledAddonDetails(id: string)
    | NoAction

  function HasExtensionId(id: string): Extension -> bool {
    (e: Extension) => e.id == id
  }

  /** `onAddonSelected`: the manager entry, or the first listed extension with the id. */
  function OnAddonSelected(addonId: string, visible: seq<Extension>): (a: AddonSelection)
    ensures addonId == AddonsManagerId ==> a == OpenAddonsManager
    ensures addonId != AddonsManagerId && (forall e :: e in visible ==> e.id != addonId) ==> a == NoAction
    ensures a.ClickBrowserAction? || a.ClickPageAction? || a.OpenInstalledAddonDetails? ==>
              addonId != AddonsManagerId &&
              exists k :: 0 <= k < |visible| && visible[k].id == addonId && a.id == addonId &&
                (forall j :: 0 <= j < k ==> visible[j].id != addonId) &&
                (a.ClickBrowserAction? <==> visible[k].hasBrowserAction) &&
                (a.ClickPageAction? <==> !visible[k].hasBrowserAction && visible[k].hasPageAction)
  {
    if addonId == AddonsManagerId then OpenAddonsManager
    else
      match FirstOrNone(HasExtensionId(addonId), visible)
      case None => NoAction
      case Some(ext) =>
        if ext.hasBrowserAction then ClickBrowserAction(addonId)
        else if ext.hasPageAction then ClickPageAction(addonId)
        else OpenInstalledAddonDetails(addonId)
  }

  /** A listed extension is always acted on: its browser action, else its page action, else its details. */
  lemma ListedExtensionIsActedOn(addonId: string, visible: seq<Extension>)
    requires addonId != AddonsManagerId
    requires exists e :: e in visible && e.id == addonId
    ensures OnAddonSelected(addonId, visible) != NoAction && OnAddonSelected(addonId, visible) != OpenAddonsManager
  {
    var e :| e in visible && e.id == addonId;
    assert HasExtensionId(addonId)(e);
  }

  /** Where the add-on button leads. */
  datatype AddonButtonDestination = AddonsActivity | AddonsSheet

  /**
   * The add-on button: the add-ons screen when no tab is selected, or when the
   * page is the start page or not a web page; the sheet otherwise.
   */
  function AddonButtonTarget(selectedTab: Option<Tab>, navUrl: string): (t: AddonButtonDestination)
    ensures t == AddonsSheet <==>
              selectedTab.Some? && !Contains(selectedTab.value.url, navUrl) && StartsWith(selectedTab.value.url, "http")
  {
    if selectedTab.None? then AddonsActivity
    else
      var url := selectedTab.value.url;
      if Contains(url, navUrl) || !StartsWith(url, "http") then AddonsActivity
      else AddonsSheet
  }

  /** The start page itself, and any page whose URL embeds it, leads to the add-ons screen. */
  lemma StartPageOpensAddonsActivity(tab: Tab, navUrl: string, prefix: string, suffix: string)
    requires tab.url == prefix + navUrl + suffix
    ensures AddonButtonTarget(Some(tab), navUrl) == AddonsActivity
  {
    assert tab.url[|prefix|..|prefix| + |navUrl|] == navUrl;
    assert OccursAt(tab.url, navUrl, |prefix|);
  }

  /** An https page that does not embed the start page opens the sheet. */
  lemma HttpsPageOpensSheet(tab: Tab, navUrl: string)
    requires StartsWith(tab.url, "https://") && !Contains(tab.url, navUrl)
    ensures AddonButtonTarget(Some(tab), navUrl) == AddonsSheet
  {
    assert tab.url[..4] == tab.url[..8][..4];
  }

  /** A toolbar navigation action. */
  datatype NavigationAction = HomeAction | OtherAction(name: string)

  /** The toolbar, reduced to its list of navigation actions. */
  class Toolbar {
    var navigationActions: seq<NavigationAction>

    constructor()
      ensures navigationActions == []
    {
      navigationActions := [];
    }

    /** The part of `homepageAndBottomMenu` that touches the toolbar: the home action is added iff the setting asks for it. */
    method AddHomeAction(showHomeButton: bool)
      modifies this
      ensures navigationActions == old(navigationActions) + (if showHomeButton then [HomeAction] else [])
      ensures HomeAction in navigationActions <==> showHomeButton || HomeAction in old(navigationActions)
    {
      if showHomeButton {
        navigationActions := navigationActions + [HomeAction];
      }
    }
  }

  /** Whether the selected tab can go back; with no tab it cannot. */
  predicate CanGoBack(tab: Option<Tab>) {
    tab.Some? && tab.value.canGoBack
  }

  /** Whether the selected tab can go forward; with no tab it cannot. */
  predicate CanGoForward(tab: Option<Tab>) {
    tab.Some? && tab.value.canGoForward
  }

  const EnabledAlpha: real := 1.0
  const DisabledAlpha: real := 0.4

  /** The back and forward buttons of the bottom bar. */
  class BottomBar {
    var backEnabled: bool
    var forwardEnabled: bool
    var backAlpha: real
    var forwardAlpha: real

    /** Each button looks enabled exactly when it is enabled. */
    predicate Valid()
      reads this
    {
      backAlpha == (if backEnabled then EnabledAlpha else DisabledAlpha) &&
      forwardAlpha == (if forwardEnabled then EnabledAlpha else DisabledAlpha)
    }

    /** Buttons start enabled, as inflated. */
    constructor ()
      ensures Valid() && backEnabled && forwardEnabled
    {
      backEnabled, forwardEnabled := true, true;
      backAlpha, forwardAlpha := EnabledAlpha, EnabledAlpha;
    }

    /** The body of the `collect`: dim and disable each button the tab cannot use. */
    method Collect(tab: Option<Tab>)
      modifies this
      ensures Valid()
      ensures backEnabled == CanGoBack(tab) && forwardEnabled == CanGoForward(tab)
    {
      var canBack := tab.Some? && tab.value.canGoBack;
      var canFwd := tab.Some? && tab.value.canGoForward;
      backAlpha := if canBack then EnabledAlpha else DisabledAlpha;
      forwardAlpha := if canFwd then EnabledAlpha else DisabledAlpha;
      backEnabled := canBack;
      forwardEnabled := canFwd;
    }

    /**
     * One subscription of the observer of `homepageAndBottomMenu`: the
     * selected tab of each store state, with repeats dropped by
     * `distinctUntilChanged`, is collected in order. Dropping repeats loses
     * nothing: the buttons end up matching the last selected tab.
     */
    method Observe(selectedTabs: seq<Option<Tab>>)
      requires Valid()
      modifies this
      ensures Valid()
      ensures selectedTabs != [] ==>
                backEnabled == CanGoBack(selectedTabs[|selectedTabs| - 1]) &&
                forwardEnabled == CanGoForward(selectedTabs[|selectedTabs| - 1])
      ensures selectedTabs == [] ==> backEnabled == old(backEnabled) && forwardEnabled == old(forwardEnabled)
    {
      var previous: Option<Option<Tab>> := None;
      for i := 0 to |selectedTabs|
        invariant Valid()
        invariant i == 0 ==> previous == None && backEnabled == old(backEnabled) && forwardEnabled == old(forwardEnabled)
        invariant i > 0 ==>
                    previous == Some(selectedTabs[i - 1]) &&
                    backEnabled == CanGoBack(selectedTabs[i - 1]) && forwardEnabled == CanGoForward(selectedTabs[i - 1])
      {
        if previous != Some(selectedTabs[i]) {
          Collect(selectedTabs[i]);
        }
        previous := Some(selectedTabs[i]);
      }
    }
  }

  /** `onBackPressed` of the browser fragment: the reader view first, then the base chain. */
  function OnBackPressed(consumes: Feature -> bool): (consumed: bool)
    ensures consumed <==>
              consumes(ReaderView) || consumes(FullScreen) || consumes(FindInPage) ||
              consumes(Toolbar) || consumes(Session) || consumes(LastTab)
  {
    consumes(ReaderView) || BaseOnBackPressed(consumes).consumed
  }

  /** The browser fragment's back press is the chain with the reader view put in front. */
  lemma OnBackPressedIsChain(consumes: Feature -> bool)
    ensures OnBackPressed(consumes) == AskHandlers([ReaderView] + BackButtonHandlers, consumes).consumed
    ensures consumes(ReaderView) ==> AskHandlers([ReaderView] + BackButtonHandlers, consumes).asked == [ReaderView]
    ensures !consumes(ReaderView) ==>
              AskHandlers([ReaderView] + BackButtonHandlers, consumes).asked ==
              [ReaderView] + BaseOnBackPressed(consumes).asked
  {
    assert ([ReaderView] + BackButtonHandlers)[1..] == BackButtonHandlers;
  }

  /** The browser fragment's own back-press chain: the reader view, then the base chain. */
  const BrowserBackChain: seq<Feature> := [ReaderView] + BackButtonHandlers

  /**
   * When picture-in-picture ends on a full-screen tab, the browser fragment's
   * press goes to the reader view first. If the reader view consumes it, the
   * full-screen feature is never asked, yet the toolbar is restored all the
   * same; otherwise the full-screen feature is asked next.
   */
  lemma PictureInPictureGoesThroughReaderView(tab: Tab, consumes: Feature -> bool)
    requires tab.fullScreen
    ensures var effect := OnPictureInPictureModeChanged(false, Some(tab), BrowserBackChain, consumes);
            effect.leftFullScreen && effect.backPress.Some? &&
            effect.backPress.value.consumed == OnBackPressed(consumes) &&
            (consumes(ReaderView) ==> effect.backPress.value.asked == [ReaderView] && FullScreen !in effect.backPress.value.asked) &&
            (!consumes(ReaderView) ==> |effect.backPress.value.asked| >= 2 && effect.backPress.value.asked[..2] == [ReaderView, FullScreen]) &&
            (!consumes(ReaderView) && consumes(FullScreen) ==> effect.backPress.value == HandlerRun(true, [ReaderView, FullScreen]))
  {
    OnBackPressedIsChain(consumes);
    FullScreenAskedFirst(consumes);
    var asked := AskHandlers(BrowserBackChain, consumes).asked;
    if !consumes(ReaderView) {
      assert asked == [ReaderView] + BaseOnBackPressed(consumes).asked;
      assert asked[1] == FullScreen;
    }
  }
}

=== FILE: installed_search_engines.dfy ===
/**
 * The "installed search engines" settings screen: restoring the default
 * engines after a language change, refetching the engine list preference, and
 * the defaults-only test on the search state.
 */
module InstalledSearchEngines {
  import opened Wrappers
  import opened Seqs
  import opened SearchStore
  import opened SearchEngineList

  /** `hasDefaultSearchEnginesOnly`: no available, additional or custom engine. */
  predicate HasDefaultSearchEnginesOnly(engines: seq<SearchEngine>, available: seq<SearchEngine>): (only: bool)
    ensures only ==> available == [] && forall e :: e in engines ==> e.kind != Custom && e.kind != BundledAdditional
  {
    FilterEmptyIff(IsAdditional, engines);
    FilterEmptyIff(IsCustom, engines);
    available == [] && Additionals(engines) == [] && Customs(engines) == []
  }

  /** A filter is empty exactly when no element passes the test. */
  lemma FilterEmptyIff<T(!new)>(p: T -> bool, s: seq<T>)
    ensures Filter(p, s) == [] <==> forall x :: x in s ==> !p(x)
  {
    if forall x :: x in s ==> !p(x) {
      FilterNoneMatch(p, s);
    } else {
      var x :| x in s && p(x);
      assert x in Filter(p, s);
    }
  }

  /** Defaults only means: nothing available, and every installed engine is bundled or an application engine. */
  lemma DefaultsOnlyMeans(engines: seq<SearchEngine>, available: seq<SearchEngine>)
    ensures HasDefaultSearchEnginesOnly(engines, available) <==>
              available == [] && forall e :: e in engines ==> e.kind == Bundled || e.kind == Application
  {
    FilterEmptyIff(IsAdditional, engines);
    FilterEmptyIff(IsCustom, engines);
  }

  lemma HasIdAppend(a: seq<SearchEngine>, b: seq<SearchEngine>, id: string)
    ensures HasId(a + b, id) <==> HasId(a, id) || HasId(b, id)
  {
    if HasId(a + b, id) {
      var x :| x in a + b && x.id == id;
      assert x in a || x in b;
    }
    if HasId(b, id) {
      var x :| x in b && x.id == id;
      assert x in a + b;
    }
  }

  /** Removing the id of `c` after removing the ids of `cs` removes the ids of `cs + [c]`. */
  lemma RemoveOneMore(cs: seq<SearchEngine>, c: SearchEngine, s: seq<SearchEngine>)
    ensures RemoveId(Filter(AbsentFrom(cs), s), c.id) == Filter(AbsentFrom(cs + [c]), s)
  {
    forall x | x in s ensures AbsentFrom(cs + [c])(x) == (AbsentFrom(cs)(x) && IdIsNot(c.id)(x)) {
      HasIdAppend(cs, [c], x.id);
      assert HasId([c], x.id) <==> c.id == x.id by {
        if c.id == x.id {
          assert c in [c];
        }
      }
    }
    FilterFuse(AbsentFrom(cs), IdIsNot(c.id), AbsentFrom(cs + [c]), s);
  }

  /** With distinct ids, removing the ids of all custom engines leaves exactly the non-custom ones. */
  lemma RemovingCustomIdsLeavesNonCustoms(s: seq<SearchEngine>)
    requires DistinctIds(s)
    ensures Filter(AbsentFrom(Customs(s)), s) == NonCustoms(s)
  {
    forall x | x in s ensures AbsentFrom(Customs(s))(x) == IsNotCustom(x) {
      if x.kind == Custom {
        assert x in Customs(s);
      }
    }
    FilterAgree(AbsentFrom(Customs(s)), IsNotCustom, s);
  }

  /** With distinct ids, no later engine shares the first engine's id. */
  lemma LaterIdsDiffer(h: seq<SearchEngine>)
    requires |h| > 0 && DistinctIds(h)
    ensures forall x :: x in h[1..] ==> IdIsNot(h[0].id)(x)
  {
    forall x | x in h[1..] ensures x.id != h[0].id {
      var j :| 0 <= j < |h[1..]| && h[1..][j] == x;
      assert x == h[j + 1];
    }
  }

  /** With distinct ids, removing the first engine's id drops exactly that engine. */
  lemma RemoveFirstId(h: seq<SearchEngine>)
    requires |h| > 0 && DistinctIds(h)
    ensures RemoveId(h, h[0].id) == h[1..]
  {
    var p := IdIsNot(h[0].id);
    LaterIdsDiffer(h);
    FilterAllMatch(p, h[1..]);
    assert h == [h[0]] + h[1..];
    FilterConcat(p, [h[0]], h[1..]);
    assert Filter(p, [h[0]]) == [] by {
      assert [h[0]][..0] == [];
    }
  }

  /**
   * Appending the hidden engines one by one to a list without custom engines:
   * the next hidden engine's id is never installed yet, and removing it from
   * the remaining hidden list drops exactly that engine.
   */
  lemma AppendHiddenStep(base: seq<SearchEngine>, hidden: seq<SearchEngine>, i: nat)
    requires i < |hidden| && DistinctIds(hidden) && DisjointIds(hidden, NonCustoms(base))
    requires forall x :: x in base ==> x.kind != Custom
    ensures !HasId(base + hidden[..i], hidden[i].id)
    ensures RemoveId(hidden[i..], hidden[i].id) == hidden[i + 1..]
    ensures base + hidden[..i] + [hidden[i]] == base + hidden[..i + 1]
  {
    var h := hidden[i];
    assert hidden[..i + 1] == hidden[..i] + [h];
    assert h in hidden;
    forall x | x in base ensures x.id != h.id {
      assert x in NonCustoms(base);
    }
    forall x | x in hidden[..i] ensures x.id != h.id {
      var j :| 0 <= j < i && hidden[..i][j] == x;
      assert hidden[j] == x;
    }
    HasIdAppend(base, hidden[..i], h.id);
    assert DistinctIds(hidden[i..]);
    RemoveFirstId(hidden[i..]);
  }

  /** The first loop of `restoreSearchDefaults`: every custom engine, as listed on entry, is removed. */
  method RemoveCustomEngines(store: EngineStore)
    requires store.Valid()
    modifies store
    ensures store.Valid()
    ensures store.engines == NonCustoms(old(store.engines))
    ensures store.hidden == old(store.hidden) && store.available == old(store.available)
    ensures store.userSelectedId == old(store.userSelectedId)
  {
    ghost var installed := store.engines;
    var customs := Customs(store.engines);
    FilterAllMatch(AbsentFrom([]), installed);
    assert customs[..0] == [];
    for i := 0 to |customs|
      invariant store.Valid()
      invariant store.engines == Filter(AbsentFrom(customs[..i]), installed)
      invariant store.hidden == old(store.hidden) && store.available == old(store.available)
      invariant store.userSelectedId == old(store.userSelectedId)
    {
      RemoveOneMore(customs[..i], customs[i], installed);
      SliceStep(customs, i);
      assert customs[i] in customs;
      store.RemoveCustom(customs[i]);
    }
    assert customs[..|customs|] == customs;
    RemovingCustomIdsLeavesNonCustoms(installed);
  }

  /** One turn of the second loop: the next hidden engine moves to the end of the installed list. */
  method AddNextHidden(store: EngineStore, ghost base: seq<SearchEngine>, hidden: seq<SearchEngine>, i: nat)
    requires i < |hidden| && DistinctIds(hidden) && DisjointIds(hidden, NonCustoms(base))
    requires forall x :: x in base ==> x.kind != Custom
    requires store.Valid() && store.engines == base + hidden[..i] && store.hidden == hidden[i..]
    modifies store
    ensures store.Valid() && store.engines == base + hidden[..i + 1] && store.hidden == hidden[i + 1..]
    ensures store.available == old(store.available) && store.userSelectedId == old(store.userSelectedId)
  {
    var h := hidden[i];
    AppendHiddenStep(base, hidden, i);
    store.Add(h);
    assert store.engines == base + hidden[..i] + [h];
  }

  /**
   * The second loop of `restoreSearchDefaults`, on a store without custom
   * engines: every hidden engine, as listed on entry, is appended in order.
   */
  method AddHiddenEngines(store: EngineStore)
    requires store.Valid()
    requires forall x :: x in store.engines ==> x.kind != Custom
    modifies store
    ensures store.Valid()
    ensures store.engines == old(store.engines) + old(store.hidden)
    ensures store.hidden == []
    ensures store.available == old(store.available) && store.userSelectedId == old(store.userSelectedId)
  {
    ghost var base := store.engines;
    var hidden := store.hidden;
    assert DistinctIds(hidden) && DisjointIds(hidden, NonCustoms(base));
    assert hidden[..0] == [];
    for i := 0 to |hidden|
      invariant store.Valid()
      invariant store.engines == base + hidden[..i]
      invariant store.hidden == hidden[i..]
      invariant store.available == old(store.available) && store.userSelectedId == old(store.userSelectedId)
    {
      AddNextHidden(store, base, hidden, i);
    }
    assert hidden[..|hidden|] == hidden;
  }

  /**
   * `restoreSearchDefaults`: the custom engines are removed, then the hidden
   * engines are added back. The other installed engines keep their order, the
   * hidden engines follow them in their hidden order, and nothing is left hidden.
   */
  method RestoreSearchDefaults(store: EngineStore)
    requires store.Valid()
    modifies store
    ensures store.Valid()
    ensures store.engines == NonCustoms(old(store.engines)) + old(store.hidden)
    ensures store.hidden == []
    ensures store.available == old(store.available) && store.userSelectedId == old(store.userSelectedId)
  {
    RemoveCustomEngines(store);
    AddHiddenEngines(store);
  }

  /** After a restore, no custom engine is left; defaults-only then depends on the additional and available engines alone. */
  lemma RestoreDefaultsOnlyIff(installed: seq<SearchEngine>, hidden: seq<SearchEngine>, available: seq<SearchEngine>)
    requires forall h :: h in hidden ==> h.kind != Custom
    ensures Customs(NonCustoms(installed) + hidden) == []
    ensures HasDefaultSearchEnginesOnly(NonCustoms(installed) + hidden, available) <==>
              available == [] && forall e :: e in installed + hidden ==> e.kind != BundledAdditional
  {
    var r := NonCustoms(installed) + hidden;
    forall x | x in r ensures x.kind != Custom {
      assert x in NonCustoms(installed) || x in hidden;
    }
    FilterEmptyIff(IsCustom, r);
    FilterEmptyIff(IsAdditional, r);
    forall e | e in installed + hidden && e.kind == BundledAdditional ensures e in r {
      assert e in installed || e in hidden;
    }
  }

  /**
   * After a language change the custom engines are exactly the catalogue
   * engines whose id no restored engine already uses: the user's own custom
   * engines are gone.
   */
  lemma LanguageChangeResetsCustomEngines(installed: seq<SearchEngine>, hidden: seq<SearchEngine>)
    requires forall h :: h in hidden ==> h.kind != Custom
    ensures forall c :: c in Customs(Provision(NonCustoms(installed) + hidden)) <==>
              c in Catalogue && !HasId(NonCustoms(installed) + hidden, c.id)
  {
    var t := NonCustoms(installed) + hidden;
    ProvisionAppendsMissing(t);
    CatalogueEntriesCustom();
    forall c ensures c in Customs(Provision(t)) <==> c in Catalogue && !HasId(t, c.id) {
      if c in Customs(Provision(t)) {
        assert c in t || c in Filter(AbsentFrom(t), Catalogue);
        assert c !in t;
      }
      if c in Catalogue && !HasId(t, c.id) {
        assert c in Filter(AbsentFrom(t), Catalogue);
        assert c in Provision(t);
      }
    }
  }

  /** The static `languageChanged` flag of the screen's companion object. */
  class LanguageFlag {
    var changed: bool

    constructor (changed: bool)
      ensures this.changed == changed
    {
      this.changed := changed;
    }
  }

  class InstalledSearchEnginesSettings {
    const store: EngineStore
    const language: LanguageFlag
    /** The engine-list preference on the screen, if the screen has one. */
    var enginePref: RadioSearchEngineListPreference?

    /** `onCreatePreferences` only sets the title: the screen starts without preferences. */
    constructor (store: EngineStore, language: LanguageFlag)
      ensures this.store == store && this.language == language && enginePref == null
    {
      this.store := store;
      this.language := language;
      enginePref := null;
    }

    /** `setupPreferences`: the preference on the screen, if any, gets the refetching click listener. */
    method SetupPreferences()
      modifies enginePref
      ensures enginePref != null ==> enginePref.clickListenerSet
    {
      if enginePref != null {
        enginePref.clickListenerSet := true;
      }
    }

    /**
     * `refetchSearchEngines`: the screen is cleared and re-inflated, and the new
     * preference, not yet bound to a view, loads the engines.
     */
    method RefetchSearchEngines(defaultId: Option<string>)
      requires store.Valid()
      modifies this, store
      ensures store.Valid()
      ensures store.engines == Provision(old(store.engines))
      ensures store.hidden == old(store.hidden) && store.available == old(store.available)
      ensures store.userSelectedId == old(store.userSelectedId)
      ensures enginePref != null && fresh(enginePref) && enginePref.store == store
      ensures enginePref.searchEngineGroup == null && !enginePref.clickListenerSet
      ensures enginePref.searchEngines == store.engines
    {
      var pref := new RadioSearchEngineListPreference(store);
      enginePref := pref;
      pref.RefetchSearchEngines(defaultId);
    }

    /** The click listener: refetch and report the click as handled. */
    method OnPreferenceClick(defaultId: Option<string>) returns (handled: bool)
      requires store.Valid()
      modifies this, store
      ensures handled
      ensures store.Valid() && store.engines == Provision(old(store.engines))
      ensures store.hidden == old(store.hidden) && store.userSelectedId == old(store.userSelectedId)
    {
      RefetchSearchEngines(defaultId);
      handled := true;
    }

    /** `restoreSearchEngines`: restore the defaults, refetch, and clear the language flag. */
    method RestoreSearchEngines(defaultId: Option<string>)
      requires store.Valid()
      modifies this, store, language
      ensures store.Valid() && !language.changed
      ensures store.engines == Provision(NonCustoms(old(store.engines)) + old(store.hidden))
      ensures store.hidden == [] && store.userSelectedId == old(store.userSelectedId)
      ensures enginePref != null && fresh(enginePref) && !enginePref.clickListenerSet
    {
      RestoreSearchDefaults(store);
      RefetchSearchEngines(defaultId);
      language.changed := false;
    }

    /**
     * `onResume`: install the click listener, then restore the defaults when
     * the language changed and only refetch otherwise. Both paths end in a
     * refetch that replaces the preference, so the preference left on the
     * screen is never the one that received the click listener.
     */
    method OnResume(defaultId: Option<string>)
      requires store.Valid()
      modifies this, store, language, enginePref
      ensures store.Valid() && !language.changed
      ensures old(language.changed) ==>
                store.engines == Provision(NonCustoms(old(store.engines)) + old(store.hidden)) && store.hidden == []
      ensures !old(language.changed) ==>
                store.engines == Provision(old(store.engines)) && store.hidden == old(store.hidden)
      ensures store.userSelectedId == old(store.userSelectedId)
      ensures enginePref != null && fresh(enginePref) && !enginePref.clickListenerSet
    {
      SetupPreferences();
      if language.changed {
        RestoreSearchEngines(defaultId);
      } else {
        RefetchSearchEngines(defaultId);
      }
    }
  }
}

=== FILE: search_engine_list.dfy ===
/**
 * The search-engine chooser preference: the fixed catalogue of custom engines
 * it provisions into the store, the radio rows it builds from the store, and
 * the handler that turns a checked row into the store's selection.
 *
 * The library's abstract `SearchEngineListPreference` and its only subclass
 * `RadioSearchEngineListPreference` are one class here.
 */
module SearchEngineList {
  import opened Wrappers
  import opened Seqs
  import opened Text
  import opened SearchStore

  /** Placeholder that the browser replaces with the user's query. */
  const SearchTermsPlaceholder := "{searchTerms}"

  /**
   * A catalogue engine: custom, UTF-8, one result URL made of `urlHead`, the
   * query placeholder and `urlTail`, and one suggestion URL.
   */
  function CatalogueEntry(id: string, name: string, urlHead: string, urlTail: string, suggestUrl: string): (e: SearchEngine)
    ensures e.id == id && e.name == name && e.kind == Custom && e.encoding == "UTF-8"
    ensures |e.resultUrls| == 1 && Contains(e.resultUrls[0], SearchTermsPlaceholder)
  {
    var url := urlHead + SearchTermsPlaceholder + urlTail;
    assert OccursAt(url, SearchTermsPlaceholder, |urlHead|) by {
      assert url[|urlHead|..|urlHead| + |SearchTermsPlaceholder|] == SearchTermsPlaceholder;
    }
    SearchEngine(id, name, "UTF-8", Custom, [url], Some(suggestUrl))
  }

  /** The eight engines the preference provisions, in declaration order. */
  const Catalogue: seq<SearchEngine> := [
    CatalogueEntry("mita", "秘塔AI", "https://metaso.cn/?q=", "", "https://metaso.cn"),
    CatalogueEntry("baidu", "百度", "https://m.baidu.com/s?word=", "",
                   "https://m.baidu.com/su?wd={searchTerms}&action=opensearch&ie=UTF-8"),
    CatalogueEntry("360", "360", "https://m.so.com/s?q=", "",
                   "https://sug.so.360.cn/suggest?encodein=utf-8&encodeout=utf-8&word={searchTerms}"),
    CatalogueEntry("sogou", "搜狗", "https://m.sogou.com/web/searchList.jsp?keyword=", "",
                   "https://m.sogou.com/sugg/ajaj?type=web&query={searchTerms}"),
    CatalogueEntry("sm", "神马", "https://m.sm.cn/s?q=", "", "https://sug.sm.cn/s?enc=utf-8&wd={searchTerms}"),
    CatalogueEntry("quark", "夸克", "https://quark.sm.cn/s?q=", "", "https://sug.sm.cn/s?enc=utf-8&wd={searchTerms}"),
    CatalogueEntry("douyin", "抖音", "https://www.douyin.com/search/", "",
                   "https://www.douyin.com/aweme/v1/search/sug/?keyword={searchTerms}"),
    CatalogueEntry("toutiao", "头条", "https://m.toutiao.com/search/?keyword=", "",
                   "https://m.toutiao.com/search/sug/?keyword={searchTerms}")
  ]

  const CatalogueIds: seq<string> := ["mita", "baidu", "360", "sogou", "sm", "quark", "douyin", "toutiao"]

  /** One guarded insertion: `c` is appended unless an engine with its id is already there. */
  function EnsureEntry(s: seq<SearchEngine>, c: SearchEngine): (r: seq<SearchEngine>)
    ensures HasId(r, c.id)
    ensures s <= r && |r| <= |s| + 1
  {
    if HasId(s, c.id) then s else s + [c]
  }

  /** The guarded insertions of `cat`, applied in order, each re-reading the list the previous one left. */
  function ProvisionFrom(s: seq<SearchEngine>, cat: seq<SearchEngine>): (r: seq<SearchEngine>)
    ensures s <= r && |r| <= |s| + |cat|
  {
    if cat == [] then s else EnsureEntry(ProvisionFrom(s, cat[..|cat| - 1]), cat[|cat| - 1])
  }

  /** The store's engine list after the catalogue has been provisioned. */
  function Provision(s: seq<SearchEngine>): (r: seq<SearchEngine>)
    ensures s <= r && |r| <= |s| + 8
  {
    ProvisionFrom(s, Catalogue)
  }

  /** The catalogue's ids, in order. */
  lemma CatalogueIdsListed()
    ensures |Catalogue| == |CatalogueIds| == 8
    ensures forall k :: 0 <= k < 8 ==> Catalogue[k].id == CatalogueIds[k]
  {
  }

  /** No two catalogue engines share an id. */
  lemma CatalogueDistinctIds()
    ensures DistinctIds(Catalogue)
  {
    CatalogueIdsListed();
    assert forall i, j :: 0 <= i < j < 8 ==> CatalogueIds[i] != CatalogueIds[j];
  }

  /** Every catalogue engine is custom, UTF-8, with a single result URL. */
  lemma CatalogueEntriesCustom()
    ensures forall c :: c in Catalogue ==> c.kind == Custom && c.encoding == "UTF-8" && |c.resultUrls| == 1
  {
  }

  /** Every catalogue engine's result URL carries the query placeholder. */
  lemma CatalogueUrlsHavePlaceholder()
    ensures forall c :: c in Catalogue ==> |c.resultUrls| == 1 && Contains(c.resultUrls[0], SearchTermsPlaceholder)
  {
  }

  /** One guarded insertion after a block that does not hold `c`'s id appends `c` iff `s` lacks its id. */
  lemma EnsureEntryAfterMissing(s: seq<SearchEngine>, added: seq<SearchEngine>, c: SearchEngine)
    requires !HasId(added, c.id)
    ensures EnsureEntry(s + added, c) == s + added + (if AbsentFrom(s)(c) then [c] else [])
  {
    if HasId(s + added, c.id) {
      var x :| x in s + added && x.id == c.id;
      assert x in s || x in added;
    }
  }

  /**
   * Provisioning keeps the list as it was and appends, in catalogue order,
   * exactly the catalogue engines whose id was missing.
   */
  lemma {:induction false} ProvisionFromAppendsMissing(s: seq<SearchEngine>, cat: seq<SearchEngine>)
    requires DistinctIds(cat)
    ensures ProvisionFrom(s, cat) == s + Filter(AbsentFrom(s), cat)
  {
    if cat != [] {
      var n := |cat| - 1;
      var init, c := cat[..n], cat[n];
      assert DistinctIds(init) by { assert forall i, j :: 0 <= i < j < n ==> init[i] == cat[i] && init[j] == cat[j]; }
      ProvisionFromAppendsMissing(s, init);
      assert ProvisionFrom(s, cat) == EnsureEntry(ProvisionFrom(s, init), c);
      assert Filter(AbsentFrom(s), cat) == Filter(AbsentFrom(s), init) + (if AbsentFrom(s)(c) then [c] else []);
      var added := Filter(AbsentFrom(s), init);
      assert !HasId(added, c.id) by {
        forall x | x in added ensures x.id != c.id {
          assert x in init;
          var k :| 0 <= k < n && init[k] == x;
          assert cat[k] == x;
        }
      }
      EnsureEntryAfterMissing(s, added, c);
    }
  }

  /** Every id of the catalogue is in the list after provisioning. */
  lemma {:induction false} ProvisionFromHasAll(s: seq<SearchEngine>, cat: seq<SearchEngine>)
    ensures forall c :: c in cat ==> HasId(ProvisionFrom(s, cat), c.id)
  {
    if cat != [] {
      var n := |cat| - 1;
      ProvisionFromHasAll(s, cat[..n]);
      var before := ProvisionFrom(s, cat[..n]);
      forall c | c in cat ensures HasId(ProvisionFrom(s, cat), c.id) {
        if c != cat[n] {
          assert c in cat[..n];
          var x :| x in before && x.id == c.id;
          assert x in ProvisionFrom(s, cat);
        } else if !HasId(before, c.id) {
          assert c in ProvisionFrom(s, cat);
        } else {
          assert ProvisionFrom(s, cat) == before;
        }
      }
    }
  }

  lemma ProvisionAppendsMissing(s: seq<SearchEngine>)
    ensures Provision(s) == s + Filter(AbsentFrom(s), Catalogue)
  {
    CatalogueDistinctIds();
    ProvisionFromAppendsMissing(s, Catalogue);
  }

  /** After provisioning, every catalogue id is in the list. */
  lemma ProvisionHasCatalogue(s: seq<SearchEngine>)
    ensures forall id :: id in CatalogueIds ==> HasId(Provision(s), id)
  {
    ProvisionFromHasAll(s, Catalogue);
    CatalogueIdsListed();
    forall id | id in CatalogueIds ensures HasId(Provision(s), id) {
      var k :| 0 <= k < 8 && CatalogueIds[k] == id;
      assert Catalogue[k] in Catalogue;
    }
  }

  /**
   * An engine already in the list is neither re-added nor overwritten: the old
   * list is a prefix of the new one, and every appended engine is a catalogue
   * engine whose id was absent.
   */
  lemma ProvisionKeepsExisting(s: seq<SearchEngine>)
    ensures |Provision(s)| >= |s| && Provision(s)[..|s|] == s
    ensures forall k :: |s| <= k < |Provision(s)| ==>
              Provision(s)[k] in Catalogue && !HasId(s, Provision(s)[k].id)
  {
    ProvisionAppendsMissing(s);
    var added := Filter(AbsentFrom(s), Catalogue);
    var p := Provision(s);
    forall k | |s| <= k < |p| ensures p[k] in Catalogue && !HasId(s, p[k].id) {
      assert p[k] == added[k - |s|];
      assert p[k] in added;
    }
  }

  /** Filtering a list with distinct ids by absence from `s` and appending it to `s` keeps ids distinct. */
  lemma AppendMissingKeepsDistinctIds(s: seq<SearchEngine>, cat: seq<SearchEngine>)
    requires DistinctIds(s) && DistinctIds(cat)
    ensures DistinctIds(s + Filter(AbsentFrom(s), cat))
  {
    FilterKeepsDistinctIds(AbsentFrom(s), cat);
    var added := Filter(AbsentFrom(s), cat);
    var p := s + added;
    forall i, j | 0 <= i < j < |p| ensures p[i].id != p[j].id {
      if j >= |s| && i < |s| {
        assert p[j] == added[j - |s|];
        assert p[j] in added;
        assert p[i] in s;
      } else if i >= |s| {
        assert p[i] == added[i - |s|] && p[j] == added[j - |s|];
      }
    }
  }

  /** Provisioning a list with distinct ids yields a list with distinct ids. */
  lemma ProvisionKeepsDistinctIds(s: seq<SearchEngine>)
    requires DistinctIds(s)
    ensures DistinctIds(Provision(s))
  {
    ProvisionAppendsMissing(s);
    CatalogueDistinctIds();
    AppendMissingKeepsDistinctIds(s, Catalogue);
  }

  /** Guarded insertion of a catalogue is idempotent once every id is present. */
  lemma ProvisionFromIdempotent(s: seq<SearchEngine>, cat: seq<SearchEngine>)
    requires DistinctIds(cat)
    ensures ProvisionFrom(ProvisionFrom(s, cat), cat) == ProvisionFrom(s, cat)
  {
    var p := ProvisionFrom(s, cat);
    ProvisionFromHasAll(s, cat);
    ProvisionFromAppendsMissing(p, cat);
    FilterNoneMatch(AbsentFrom(p), cat);
  }

  /** Provisioning twice adds nothing the first time did not. */
  lemma ProvisionIdempotent(s: seq<SearchEngine>)
    ensures Provision(Provision(s)) == Provision(s)
  {
    CatalogueDistinctIds();
    ProvisionFromIdempotent(s, Catalogue);
  }

  /** One radio row: its view id, its tag (the engine id), its text and its checked state. */
  datatype RadioButton = RadioButton(id: int, tag: string, text: string, checked: bool)

  /** The rows a refresh builds: one per engine, in order, the default engine's row checked. */
  function Rows(engines: seq<SearchEngine>, defaultId: Option<string>): (rows: seq<RadioButton>)
    ensures |rows| == |engines|
  {
    seq(|engines|, i requires 0 <= i < |engines| =>
      RadioButton(i, engines[i].id, engines[i].name, Some(engines[i].id) == defaultId))
  }

  /**
   * Row i has view id i and tag `engines[i].id`; a row is checked exactly when
   * its tag is the default id, so at most one row is checked when ids are distinct.
   */
  lemma RowsSpec(engines: seq<SearchEngine>, defaultId: Option<string>)
    ensures forall i :: 0 <= i < |engines| ==>
              Rows(engines, defaultId)[i].id == i &&
              Rows(engines, defaultId)[i].tag == engines[i].id &&
              (Rows(engines, defaultId)[i].checked <==> defaultId == Some(engines[i].id))
    ensures DistinctIds(engines) ==>
              forall i, j :: 0 <= i < j < |engines| ==>
                !(Rows(engines, defaultId)[i].checked && Rows(engines, defaultId)[j].checked)
  {
  }

  /** What a check event does. */
  datatype CheckOutcome = Crash | Ignore | SelectIndex(index: nat)

  /**
   * `onCheckedChanged` as written: `getChildAt` gives null for a missing row,
   * and the row's pressed flag is read before the null test, so a missing row
   * throws instead of being ignored.
   */
  function CheckedChangeAsWritten(childCount: nat, engineCount: nat, checkedId: int,
                                  pressed: bool, a11yFocused: bool): CheckOutcome
  {
    if !(0 <= checkedId < childCount) then Crash
    else if childCount != engineCount || !(pressed || a11yFocused) then Ignore
    else SelectIndex(checkedId)
  }

  /**
   * The guard as intended: an event is trusted only when the row count equals
   * the engine count, the row exists and it was pressed or accessibility-focused.
   */
  function CheckedChangeDecision(childCount: nat, engineCount: nat, checkedId: int,
                                 pressed: bool, a11yFocused: bool): (d: CheckOutcome)
    ensures d != Crash
    ensures d.SelectIndex? <==>
              childCount == engineCount && 0 <= checkedId < childCount && (pressed || a11yFocused)
    ensures d.SelectIndex? ==> d.index == checkedId && d.index < engineCount
  {
    if childCount != engineCount || !(0 <= checkedId < childCount) || !(pressed || a11yFocused) then Ignore
    else SelectIndex(checkedId)
  }

  /** A rebuild delivers the event for row 2 while only rows 0 and 1 are attached: the handler throws. */
  lemma CheckedChangeAsWrittenCrashes()
    ensures CheckedChangeAsWritten(2, 4, 2, false, false) == Crash
    ensures CheckedChangeDecision(2, 4, 2, false, false) == Ignore
  {
  }

  /** Wherever the handler as written does not throw, it decides as intended. */
  lemma CheckedChangeAsWrittenAgrees(childCount: nat, engineCount: nat, checkedId: int,
                                     pressed: bool, a11yFocused: bool)
    ensures CheckedChangeAsWritten(childCount, engineCount, checkedId, pressed, a11yFocused) == Crash <==>
              !(0 <= checkedId < childCount)
    ensures CheckedChangeAsWritten(childCount, engineCount, checkedId, pressed, a11yFocused) != Crash ==>
              CheckedChangeAsWritten(childCount, engineCount, checkedId, pressed, a11yFocused) ==
              CheckedChangeDecision(childCount, engineCount, checkedId, pressed, a11yFocused)
  {
  }

  /**
   * The guarded insertions: each engine of `cat` is added to the store unless an
   * engine with its id is already installed.
   */
  method InsertMissing(store: EngineStore, cat: seq<SearchEngine>)
    requires store.Valid()
    requires forall c :: c in cat ==> c.kind == Custom
    modifies store
    ensures store.Valid()
    ensures store.engines == ProvisionFrom(old(store.engines), cat)
    ensures store.hidden == old(store.hidden) && store.available == old(store.available)
    ensures store.userSelectedId == old(store.userSelectedId)
  {
    for i := 0 to |cat|
      invariant store.Valid()
      invariant store.engines == ProvisionFrom(old(store.engines), cat[..i])
      invariant store.hidden == old(store.hidden) && store.available == old(store.available)
      invariant store.userSelectedId == old(store.userSelectedId)
    {
      var entry := cat[i];
      if !HasId(store.engines, entry.id) {
        store.Add(entry);
      }
      assert cat[..i + 1][..i] == cat[..i];
    }
    assert cat[..|cat|] == cat;
  }

  /** The radio group the rows live in. */
  class RadioGroup {
    var buttons: seq<RadioButton>
    var listenerAttached: bool

    constructor ()
      ensures buttons == [] && !listenerAttached
    {
      buttons := [];
      listenerAttached := false;
    }
  }

  class RadioSearchEngineListPreference {
    const store: EngineStore
    var searchEngines: seq<SearchEngine>
    var searchEngineGroup: RadioGroup?
    /** Whether a click listener has been installed on the preference. */
    var clickListenerSet: bool

    constructor (store: EngineStore)
      ensures this.store == store && searchEngines == [] && searchEngineGroup == null
      ensures !clickListenerSet
    {
      this.store := store;
      searchEngines := [];
      searchEngineGroup := null;
      clickListenerSet := false;
    }

    /** `loadSearchEngines`: provisions the catalogue and returns the store's list. */
    method LoadSearchEngines() returns (r: seq<SearchEngine>)
      requires store.Valid()
      modifies store
      ensures store.Valid()
      ensures store.engines == Provision(old(store.engines)) && r == store.engines
      ensures store.hidden == old(store.hidden) && store.available == old(store.available)
      ensures store.userSelectedId == old(store.userSelectedId)
    {
      CatalogueEntriesCustom();
      InsertMissing(store, Catalogue);
      r := store.engines;
    }

    /** `updateDefaultItem` of the radio variant: the button becomes checked. */
    function UpdateDefaultItem(b: RadioButton): (r: RadioButton)
      ensures r.checked
      ensures r.id == b.id && r.tag == b.tag && r.text == b.text
    {
      b.(checked := true)
    }

    /**
     * `refreshSearchEngineViews`: without a group nothing happens; otherwise the
     * group's rows are rebuilt from `searchEngines`.
     */
    method RefreshSearchEngineViews(defaultId: Option<string>)
      modifies searchEngineGroup
      ensures searchEngineGroup != null ==> searchEngineGroup.buttons == Rows(searchEngines, defaultId)
      ensures searchEngineGroup != null ==> searchEngineGroup.listenerAttached == old(searchEngineGroup.listenerAttached)
    {
      var group := searchEngineGroup;
      if group == null {
        return;
      }
      group.buttons := [];
      for i := 0 to |searchEngines|
        invariant group.buttons == Rows(searchEngines[..i], defaultId)
        invariant group.listenerAttached == old(group.listenerAttached)
      {
        var engine := searchEngines[i];
        var engineItem := RadioButton(i, engine.id, engine.name, false);
        if Some(engine.id) == defaultId {
          engineItem := UpdateDefaultItem(engineItem);
        }
        group.buttons := group.buttons + [engineItem];
      }
      assert searchEngines[..|searchEngines|] == searchEngines;
    }

    /** `refetchSearchEngines`: reload from the store, then rebuild the rows. */
    method RefetchSearchEngines(defaultId: Option<string>)
      requires store.Valid()
      modifies this, store, searchEngineGroup
      ensures store.Valid() && searchEngineGroup == old(searchEngineGroup)
      ensures clickListenerSet == old(clickListenerSet)
      ensures searchEngines == store.engines == Provision(old(store.engines))
      ensures store.hidden == old(store.hidden) && store.available == old(store.available)
      ensures store.userSelectedId == old(store.userSelectedId)
      ensures searchEngineGroup != null ==> searchEngineGroup.buttons == Rows(searchEngines, defaultId)
      ensures searchEngineGroup != null ==> searchEngineGroup.listenerAttached == old(searchEngineGroup.listenerAttached)
    {
      searchEngines := LoadSearchEngines();
      RefreshSearchEngineViews(defaultId);
    }

    /**
     * `onBindViewHolder`: take the group, load and render the engines, and only
     * then attach the check listener.
     */
    method OnBindViewHolder(group: RadioGroup, defaultId: Option<string>)
      requires store.Valid()
      modifies this, store, group
      ensures store.Valid() && searchEngineGroup == group
      ensures clickListenerSet == old(clickListenerSet)
      ensures searchEngines == store.engines == Provision(old(store.engines))
      ensures store.userSelectedId == old(store.userSelectedId)
      ensures group.buttons == Rows(searchEngines, defaultId) && group.listenerAttached
    {
      searchEngineGroup := group;
      searchEngines := LoadSearchEngines();
      RefreshSearchEngineViews(defaultId);
      group.listenerAttached := true;
    }

    /** `onCheckedChanged`, with the row-present test made before the row is read. */
    method OnCheckedChanged(group: RadioGroup, checkedId: int, pressed: bool, a11yFocused: bool)
      modifies store
      ensures store.engines == old(store.engines) && store.hidden == old(store.hidden)
      ensures store.available == old(store.available)
      ensures var d := CheckedChangeDecision(|group.buttons|, |searchEngines|, checkedId, pressed, a11yFocused);
              if d.SelectIndex? then store.userSelectedId == Some(searchEngines[d.index].id)
              else store.userSelectedId == old(store.userSelectedId)
    {
      var d := CheckedChangeDecision(|group.buttons|, |searchEngines|, checkedId, pressed, a11yFocused);
      if d.SelectIndex? {
        store.Select(searchEngines[d.index]);
      }
    }
  }
}

=== FILE: search_store.dfy ===
/**
 * The search part of the browser store that the search screens consume: the
 * installed engines, the hidden bundled engines, the bundled engines that are
 * available but not installed, and the id of the engine the user selected.
 * Its add / remove / select operations are those of the browser component
 * library; they are modelled by their effect on these lists.
 */
module SearchStore {
  import opened Wrappers
  import opened Seqs

  /** Where an engine comes from (the library's `SearchEngine.Type`). */
  datatype EngineType = Bundled | BundledAdditional | Custom | Application

  /** A search engine definition; the icon bitmap is not modelled. */
  datatype SearchEngine = SearchEngine(
    id: string,
    name: string,
    encoding: string,
    kind: EngineType,
    resultUrls: seq<string>,
    suggestUrl: Option<string>)

  /** Some engine of `s` has id `id` (`s.any { it.id == id }`). */
  predicate HasId(s: seq<SearchEngine>, id: string) {
    exists e :: e in s && e.id == id
  }

  /** No two engines of `s` share an id. */
  predicate DistinctIds(s: seq<SearchEngine>) {
    forall i, j :: 0 <= i < j < |s| ==> s[i].id != s[j].id
  }

  /** No engine of `a` has the id of an engine of `b`. */
  predicate DisjointIds(a: seq<SearchEngine>, b: seq<SearchEngine>) {
    forall e :: e in a ==> !HasId(b, e.id)
  }

  /** The test "has an id other than `id`" as a function value. */
  function IdIsNot(id: string): SearchEngine -> bool {
    (e: SearchEngine) => e.id != id
  }

  /** The test "no engine of `s` has this id" as a function value. */
  function AbsentFrom(s: seq<SearchEngine>): SearchEngine -> bool {
    (c: SearchEngine) => !HasId(s, c.id)
  }

  predicate IsCustom(e: SearchEngine) { e.kind == Custom }
  predicate IsNotCustom(e: SearchEngine) { e.kind != Custom }
  predicate IsAdditional(e: SearchEngine) { e.kind == BundledAdditional }

  /** `s` without the engines whose id is `id`. */
  function RemoveId(s: seq<SearchEngine>, id: string): (r: seq<SearchEngine>)
    ensures forall e :: e in r <==> e in s && e.id != id
    ensures !HasId(r, id)
  {
    Filter(IdIsNot(id), s)
  }

  /** `s` with `e` in place of the engine that has its id, or with `e` appended when none has. */
  function Upsert(s: seq<SearchEngine>, e: SearchEngine): (r: seq<SearchEngine>)
    ensures !HasId(s, e.id) ==> r == s + [e]
    ensures HasId(s, e.id) ==> |r| == |s|
    ensures e in r
    ensures forall x :: x in s && x.id != e.id ==> x in r
    ensures forall x :: x in r ==> x == e || x in s
    ensures DistinctIds(s) ==> forall x :: x in r && x != e ==> x.id != e.id
  {
    if s == [] then [e]
    else if s[0].id == e.id then [e] + s[1..]
    else [s[0]] + Upsert(s[1..], e)
  }

  /** The custom engines among `s` (the store's `customSearchEngines`). */
  function Customs(s: seq<SearchEngine>): (r: seq<SearchEngine>)
    ensures forall e :: e in r <==> e in s && e.kind == Custom
  {
    Filter(IsCustom, s)
  }

  /** The installed engines that are not custom. */
  function NonCustoms(s: seq<SearchEngine>): (r: seq<SearchEngine>)
    ensures forall e :: e in r <==> e in s && e.kind != Custom
  {
    Filter(IsNotCustom, s)
  }

  /** The installed bundled-additional engines (the store's `additionalSearchEngines`). */
  function Additionals(s: seq<SearchEngine>): (r: seq<SearchEngine>)
    ensures forall e :: e in r <==> e in s && e.kind == BundledAdditional
  {
    Filter(IsAdditional, s)
  }

  /** A subsequence of an engine list with distinct ids has distinct ids. */
  lemma {:induction false} FilterKeepsDistinctIds(p: SearchEngine -> bool, s: seq<SearchEngine>)
    requires DistinctIds(s)
    ensures DistinctIds(Filter(p, s))
  {
    if s != [] {
      var n := |s| - 1;
      assert DistinctIds(s[..n]);
      FilterKeepsDistinctIds(p, s[..n]);
      var r := Filter(p, s);
      forall i, j | 0 <= i < j < |r| ensures r[i].id != r[j].id {
        if j < |Filter(p, s[..n])| {
          assert r[i] == Filter(p, s[..n])[i] && r[j] == Filter(p, s[..n])[j];
        } else {
          assert r[j] == s[n];
          assert r[i] in s[..n];
        }
      }
    }
  }

  /**
   * The engine registry. `Valid` is the registry invariant the search screens
   * rely on: installed ids are distinct, hidden ids are distinct, no hidden
   * engine is installed as a non-custom engine, and custom engines are never hidden.
   */
  class EngineStore {
    var engines: seq<SearchEngine>
    var hidden: seq<SearchEngine>
    var available: seq<SearchEngine>
    var userSelectedId: Option<string>

    ghost predicate Valid()
      reads this
    {
      DistinctIds(engines) && DistinctIds(hidden) && DisjointIds(hidden, NonCustoms(engines)) &&
      forall h :: h in hidden ==> h.kind != Custom
    }

    constructor (engines: seq<SearchEngine>, hidden: seq<SearchEngine>, available: seq<SearchEngine>)
      ensures this.engines == engines && this.hidden == hidden && this.available == available
      ensures userSelectedId == None
    {
      this.engines, this.hidden, this.available := engines, hidden, available;
      userSelectedId := None;
    }

    /** Installed engine ids are unique after an upsert. */
    static lemma {:induction false} UpsertKeepsDistinctIds(s: seq<SearchEngine>, e: SearchEngine)
      requires DistinctIds(s)
      ensures DistinctIds(Upsert(s, e))
    {
      if s != [] && s[0].id != e.id {
        assert DistinctIds(s[1..]);
        UpsertKeepsDistinctIds(s[1..], e);
        var r := Upsert(s, e);
        forall j | 0 < j < |r| ensures r[0].id != r[j].id {
          assert r[j] in Upsert(s[1..], e);
        }
      } else if s != [] {
        var r := Upsert(s, e);
        forall i, j | 0 <= i < j < |r| ensures r[i].id != r[j].id {
          assert r[i].id == s[i].id || i == 0;
          assert r[j] == s[j];
        }
      }
    }

    /**
     * `addSearchEngine`: the engine is inserted, or replaces the installed
     * engine with its id; an engine that is not custom also leaves the hidden list.
     */
    method Add(e: SearchEngine)
      requires Valid()
      modifies this
      ensures Valid()
      ensures engines == Upsert(old(engines), e)
      ensures hidden == if e.kind == Custom then old(hidden) else RemoveId(old(hidden), e.id)
      ensures available == old(available) && userSelectedId == old(userSelectedId)
    {
      UpsertKeepsDistinctIds(engines, e);
      engines := Upsert(engines, e);
      if e.kind != Custom {
        hidden := RemoveId(hidden, e.id);
        FilterKeepsDistinctIds(IdIsNot(e.id), old(hidden));
      }
    }

    /** `removeSearchEngine` for a custom engine: the installed engine with the id of `e` is deleted. */
    method RemoveCustom(e: SearchEngine)
      requires Valid() && e.kind == Custom
      modifies this
      ensures Valid()
      ensures engines == RemoveId(old(engines), e.id)
      ensures hidden == old(hidden) && available == old(available) && userSelectedId == old(userSelectedId)
    {
      FilterKeepsDistinctIds(IdIsNot(e.id), engines);
      engines := RemoveId(engines, e.id);
    }

    /** `selectSearchEngine`: `e` becomes the user's choice. */
    method Select(e: SearchEngine)
      modifies this
      ensures userSelectedId == Some(e.id)
      ensures engines == old(engines) && hidden == old(hidden) && available == old(available)
    {
      userSelectedId := Some(e.id);
    }
  }
}

=== FILE: seqs.dfy ===
/** Kotlin collection operations (`filter`, `firstOrNull`, `indexOfFirst`) over sequences. */
module Seqs {
  import opened Wrappers

  /** The elements of `s` that satisfy `p`, in order (Kotlin `filter`). */
  function Filter<T(!new)>(p: T -> bool, s: seq<T>): (r: seq<T>)
    ensures |r| <= |s|
    ensures forall x :: x in r <==> x in s && p(x)
  {
    if s == [] then []
    else Filter(p, s[..|s| - 1]) + (if p(s[|s| - 1]) then [s[|s| - 1]] else [])
  }

  /** Index of the first element satisfying `p`, if any (Kotlin `indexOfFirst`). */
  function FirstWhere<T>(p: T -> bool, s: seq<T>): (r: Option<nat>)
    ensures r.Some? ==> r.value < |s| && p(s[r.value])
    ensures r.Some? ==> forall j :: 0 <= j < r.value ==> !p(s[j])
    ensures r.None? <==> forall j :: 0 <= j < |s| ==> !p(s[j])
  {
    if s == [] then None
    else if p(s[0]) then Some(0)
    else
      match FirstWhere(p, s[1..])
      case None => None
      case Some(k) => Some(k + 1)
  }

  /** The first element satisfying `p`, if any (Kotlin `firstOrNull`). */
  function FirstOrNone<T(!new)>(p: T -> bool, s: seq<T>): (r: Option<T>)
    ensures r.Some? <==> exists x :: x in s && p(x)
    ensures r.Some? ==> r.value in s && p(r.value)
    ensures r.Some? ==> exists k :: 0 <= k < |s| && s[k] == r.value && forall j :: 0 <= j < k ==> !p(s[j])
  {
    match FirstWhere(p, s)
    case None => None
    case Some(k) => Some(s[k])
  }

  /** Extending a prefix by one element, and dropping the head of a suffix. */
  lemma SliceStep<T>(s: seq<T>, i: nat)
    requires i < |s|
    ensures s[..i + 1] == s[..i] + [s[i]]
    ensures s[i..][1..] == s[i + 1..]
  {
  }

  /** `Filter` over one more element of a prefix. */
  lemma FilterSnoc<T(!new)>(p: T -> bool, s: seq<T>, i: nat)
    requires i < |s|
    ensures Filter(p, s[..i + 1]) == Filter(p, s[..i]) + (if p(s[i]) then [s[i]] else [])
  {
    assert s[..i + 1][..i] == s[..i];
  }

  /** Filtering distributes over concatenation. */
  lemma {:induction false} FilterConcat<T(!new)>(p: T -> bool, a: seq<T>, b: seq<T>)
    ensures Filter(p, a + b) == Filter(p, a) + Filter(p, b)
  {
    if b == [] {
      assert a + b == a;
    } else {
      var n := |b| - 1;
      assert (a + b)[..|a + b| - 1] == a + b[..n];
      FilterConcat(p, a, b[..n]);
    }
  }

  /** Filtering by a test every element passes changes nothing. */
  lemma {:induction false} FilterAllMatch<T(!new)>(p: T -> bool, s: seq<T>)
    requires forall x :: x in s ==> p(x)
    ensures Filter(p, s) == s
  {
    if s != [] {
      var n := |s| - 1;
      FilterAllMatch(p, s[..n]);
      assert p(s[n]);
      assert s[..n] + [s[n]] == s;
    }
  }

  /** Two tests that agree on the elements of `s` filter it alike. */
  lemma {:induction false} FilterAgree<T(!new)>(p: T -> bool, q: T -> bool, s: seq<T>)
    requires forall x :: x in s ==> p(x) == q(x)
    ensures Filter(p, s) == Filter(q, s)
  {
    if s != [] {
      FilterAgree(p, q, s[..|s| - 1]);
    }
  }

  /** Filtering by `p` and then by `q` is filtering by their conjunction `r`. */
  lemma {:induction false} FilterFuse<T(!new)>(p: T -> bool, q: T -> bool, r: T -> bool, s: seq<T>)
    requires forall x :: x in s ==> r(x) == (p(x) && q(x))
    ensures Filter(q, Filter(p, s)) == Filter(r, s)
  {
    if s != [] {
      var n := |s| - 1;
      FilterFuse(p, q, r, s[..n]);
      FilterConcat(q, Filter(p, s[..n]), if p(s[n]) then [s[n]] else []);
    }
  }

  /** Filtering by a test no element passes leaves nothing. */
  lemma {:induction false} FilterNoneMatch<T(!new)>(p: T -> bool, s: seq<T>)
    requires forall x :: x in s ==> !p(x)
    ensures Filter(p, s) == []
  {
    if s != [] {
      FilterNoneMatch(p, s[..|s| - 1]);
    }
  }

  /** Filtering keeps the relative order: a filtered sequence is a subsequence. */
  lemma {:induction false} FilterIsSubsequence<T(!new)>(p: T -> bool, s: seq<T>, i: nat, j: nat)
    requires i < j < |Filter(p, s)|
    ensures exists a, b :: 0 <= a < b < |s| && s[a] == Filter(p, s)[i] && s[b] == Filter(p, s)[j]
  {
    var n := |s| - 1;
    var init := Filter(p, s[..n]);
    if j < |init| {
      FilterIsSubsequence(p, s[..n], i, j);
      var a, b :| 0 <= a < b < n && s[..n][a] == init[i] && s[..n][b] == init[j];
      assert s[a] == Filter(p, s)[i] && s[b] == Filter(p, s)[j];
    } else {
      assert Filter(p, s)[j] == s[n];
      assert init[i] in s[..n];
      var a :| 0 <= a < n && s[..n][a] == init[i];
      assert s[a] == Filter(p, s)[i];
    }
  }
}

=== FILE: settings.dfy ===
/**
 * The settings screen: the label shown for the current app language, the
 * current-locale fallback, and what `setupPreferences` hides and removes.
 */
module Settings {
  import opened Wrappers

  /** A locale, reduced to its language and country codes. */
  datatype Locale = Locale(language: string, country: string)

  /**
   * The language label shown as the summary of the language preference: one
   * of the app's three string resources, or `Locale.getDisplayLanguage()`,
   * the name of a language as rendered in the default display locale.
   */
  datatype LanguageLabel =
    | TraditionalChinese
    | SimplifiedChinese
    | English
    | LanguageName(language: string, displayedIn: Locale)

  /** `getDisplayLanguage`, while `displayLocale` is the default display locale. */
  function GetDisplayLanguage(locale: Locale, displayLocale: Locale): (shown: LanguageLabel)
    ensures shown == TraditionalChinese <==> locale.language == "zh" && locale.country == "TW"
    ensures shown == SimplifiedChinese <==> locale.language == "zh" && locale.country != "TW"
    ensures shown == English <==> locale.language == "en"
    ensures shown.LanguageName? <==> locale.language != "zh" && locale.language != "en"
    ensures shown.LanguageName? ==> shown.language == locale.language && shown.displayedIn == displayLocale
  {
    match locale.language
    case "zh" => if locale.country == "TW" then TraditionalChinese else SimplifiedChinese
    case "en" => English
    case _ => LanguageName(locale.language, displayLocale)
  }

  /**
   * The label of one locale is the same under two display locales iff it is
   * one of the app's own strings (zh or en) or the display locales agree,
   * with a shown name taken as the pair (language, display locale).
   */
  lemma LabelDependsOnDisplayLocale(locale: Locale, before: Locale, after: Locale)
    ensures GetDisplayLanguage(locale, before) == GetDisplayLanguage(locale, after) <==>
              locale.language == "zh" || locale.language == "en" || before == after
  {
  }

  /** `getCurrentLocale`: the first application locale, or the system default when none is set. */
  function GetCurrentLocale(applicationLocales: seq<Locale>, systemDefault: Locale): (l: Locale)
    ensures applicationLocales != [] ==> l == applicationLocales[0]
    ensures applicationLocales == [] ==> l == systemDefault
  {
    if |applicationLocales| > 0 then applicationLocales[0] else systemDefault
  }

  /** With no application locale the label follows the system language. */
  lemma DefaultLocaleLabel(systemDefault: Locale, displayLocale: Locale)
    ensures GetDisplayLanguage(GetCurrentLocale([], systemDefault), displayLocale) == GetDisplayLanguage(systemDefault, displayLocale)
  {
  }

  /** The preferences `setupPreferences` touches; every other one is `Other`. */
  datatype PrefKey =
    | ComposeUi | SignIn | PairSignIn | FirefoxAccount | Autofill | ChangeLanguage | DeveloperToolsCategory
    | Other(key: string)

  /** Hidden on every setup. */
  const AlwaysHidden: set<PrefKey> := {ComposeUi, SignIn, PairSignIn, FirefoxAccount}

  /** `findPreference(key)?.isVisible = false`: nothing happens when the preference is absent. */
  function Hide(prefs: map<PrefKey, bool>, key: PrefKey): (r: map<PrefKey, bool>)
    ensures r.Keys == prefs.Keys
    ensures key in prefs ==> !r[key]
    ensures forall k :: k in prefs && k != key ==> r[k] == prefs[k]
  {
    if key in prefs then prefs[key := false] else prefs
  }

  /** The developer-mode flag as read: a stored value, defaulting to false. */
  function DeveloperMode(stored: Option<bool>): bool {
    stored.GetOr(false)
  }

  /** The preferences after `setupPreferences`, keyed by preference, valued by visibility. */
  function PreferencesAfterSetup(prefs: map<PrefKey, bool>, storedDeveloperMode: Option<bool>, autofillSupported: bool): (r: map<PrefKey, bool>)
    ensures DeveloperToolsCategory in r <==> DeveloperToolsCategory in prefs && DeveloperMode(storedDeveloperMode)
    ensures r.Keys == prefs.Keys - (if DeveloperMode(storedDeveloperMode) then {} else {DeveloperToolsCategory})
    ensures forall k :: k in r ==> (r[k] <==> prefs[k] && k !in AlwaysHidden && (k != Autofill || autofillSupported))
  {
    map k | k in prefs && (k != DeveloperToolsCategory || DeveloperMode(storedDeveloperMode)) ::
      prefs[k] && k !in AlwaysHidden && (k != Autofill || autofillSupported)
  }

  /**
   * `(preferenceAutofill as AutofillPreference)` throws when autofill is
   * supported and the hierarchy has no autofill preference.
   */
  predicate SetupThrows(prefs: map<PrefKey, bool>, autofillSupported: bool) {
    autofillSupported && Autofill !in prefs
  }

  /**
   * `setupPreferences` runs on every resume; after a run that did not throw,
   * a second run does not throw either and changes nothing.
   */
  lemma SetupIsIdempotent(prefs: map<PrefKey, bool>, storedDeveloperMode: Option<bool>, autofillSupported: bool)
    ensures var once := PreferencesAfterSetup(prefs, storedDeveloperMode, autofillSupported);
            !SetupThrows(prefs, autofillSupported) ==> !SetupThrows(once, autofillSupported)
    ensures var once := PreferencesAfterSetup(prefs, storedDeveloperMode, autofillSupported);
            PreferencesAfterSetup(once, storedDeveloperMode, autofillSupported) == once
  {
    var once := PreferencesAfterSetup(prefs, storedDeveloperMode, autofillSupported);
    var twice := PreferencesAfterSetup(once, storedDeveloperMode, autofillSupported);
    assert twice.Keys == once.Keys;
    forall k | k in once ensures twice[k] == once[k] {
      assert k in twice;
    }
  }

  /** A developer-tools category is kept only when developer mode was stored as on. */
  lemma DeveloperCategoryNeedsStoredFlag(prefs: map<PrefKey, bool>, autofillSupported: bool)
    requires DeveloperToolsCategory in prefs
    ensures DeveloperToolsCategory !in PreferencesAfterSetup(prefs, None, autofillSupported)
    ensures DeveloperToolsCategory !in PreferencesAfterSetup(prefs, Some(false), autofillSupported)
    ensures DeveloperToolsCategory in PreferencesAfterSetup(prefs, Some(true), autofillSupported)
  {
  }

  /** `now` is `before` with exactly the present keys of `hidden` made invisible. */
  ghost predicate HiddenFrom(before: map<PrefKey, bool>, now: map<PrefKey, bool>, hidden: set<PrefKey>) {
    now.Keys == before.Keys && forall k :: k in now ==> (now[k] <==> before[k] && k !in hidden)
  }

  lemma HideExtends(before: map<PrefKey, bool>, now: map<PrefKey, bool>, hidden: set<PrefKey>, key: PrefKey)
    requires HiddenFrom(before, now, hidden)
    ensures HiddenFrom(before, Hide(now, key), hidden + {key})
  {
  }

  /** Two maps with the same keys and the same values are equal. */
  lemma SameEntries(a: map<PrefKey, bool>, b: map<PrefKey, bool>)
    requires forall k :: (k in a <==> k in b) && (k in a ==> a[k] == b[k])
    ensures a == b
  {
  }

  /** The hides of `setupPreferences`, one by one in the code's order. */
  function SetupHides(prefs: map<PrefKey, bool>, autofillSupported: bool): map<PrefKey, bool> {
    var p := Hide(Hide(Hide(Hide(prefs, ComposeUi), SignIn), PairSignIn), FirefoxAccount);
    if autofillSupported then p else Hide(p, Autofill)
  }

  /** The hides and then the removal of the developer-tools category. */
  function SetupSteps(prefs: map<PrefKey, bool>, storedDeveloperMode: Option<bool>, autofillSupported: bool): map<PrefKey, bool> {
    var q := SetupHides(prefs, autofillSupported);
    if DeveloperToolsCategory in q && !DeveloperMode(storedDeveloperMode) then q - {DeveloperToolsCategory} else q
  }

  /** The hides alone make exactly the always-hidden preferences, and autofill when unsupported, invisible. */
  lemma SetupHidesHide(prefs: map<PrefKey, bool>, autofillSupported: bool)
    ensures HiddenFrom(prefs, SetupHides(prefs, autofillSupported),
                       if autofillSupported then AlwaysHidden else AlwaysHidden + {Autofill})
  {
    assert HiddenFrom(prefs, prefs, {});
    HideExtends(prefs, prefs, {}, ComposeUi);
    HideExtends(prefs, Hide(prefs, ComposeUi), {ComposeUi}, SignIn);
    HideExtends(prefs, Hide(Hide(prefs, ComposeUi), SignIn), {ComposeUi, SignIn}, PairSignIn);
    var p := Hide(Hide(Hide(prefs, ComposeUi), SignIn), PairSignIn);
    HideExtends(prefs, p, {ComposeUi, SignIn, PairSignIn}, FirefoxAccount);
    assert {ComposeUi, SignIn, PairSignIn} + {FirefoxAccount} == AlwaysHidden;
    if !autofillSupported {
      HideExtends(prefs, Hide(p, FirefoxAccount), AlwaysHidden, Autofill);
    }
  }

  /** The step-by-step setup meets its per-key description. */
  lemma SetupStepsMeetSpec(prefs: map<PrefKey, bool>, storedDeveloperMode: Option<bool>, autofillSupported: bool)
    ensures SetupSteps(prefs, storedDeveloperMode, autofillSupported) == PreferencesAfterSetup(prefs, storedDeveloperMode, autofillSupported)
  {
    var q := SetupHides(prefs, autofillSupported);
    var hidden := if autofillSupported then AlwaysHidden else AlwaysHidden + {Autofill};
    SetupHidesHide(prefs, autofillSupported);
    var r := SetupSteps(prefs, storedDeveloperMode, autofillSupported);
    var expected := PreferencesAfterSetup(prefs, storedDeveloperMode, autofillSupported);
    forall k ensures (k in r <==> k in expected) && (k in r ==> r[k] == expected[k]) {
      assert k in r <==> k in q && (k != DeveloperToolsCategory || DeveloperMode(storedDeveloperMode));
      assert k in hidden <==> k in AlwaysHidden || (k == Autofill && !autofillSupported);
    }
    SameEntries(r, expected);
  }

  /** The settings screen's preference hierarchy, and the app-wide language setting it reads and writes. */
  class PreferenceScreen {
    /** Each preference present on the screen, with its visibility. */
    var prefs: map<PrefKey, bool>
    /** The summary of the language preference, once set. */
    var languageSummary: Option<LanguageLabel>
    /** `AppCompatDelegate`'s application locales. */
    var applicationLocales: seq<Locale>

    constructor (initial: map<PrefKey, bool>, locales: seq<Locale>)
      ensures prefs == initial && languageSummary == None && applicationLocales == locales
    {
      prefs := initial;
      languageSummary := None;
      applicationLocales := locales;
    }

    /** `findPreference(key)?.isVisible = false`. */
    method HidePreference(key: PrefKey)
      modifies this
      ensures prefs == Hide(old(prefs), key)
      ensures languageSummary == old(languageSummary) && applicationLocales == old(applicationLocales)
    {
      if key in prefs {
        prefs := prefs[key := false];
      }
    }

    /**
     * `setupPreferences`: set the language summary, hide the always-hidden
     * preferences, then hide autofill when unsupported or cast it when
     * supported, which throws if it is absent; and last remove the
     * developer-tools category unless developer mode is on. `threw` is that
     * exception: the summary and the first four hides have happened, the
     * removal has not.
     */
    method SetupPreferences(storedDeveloperMode: Option<bool>, autofillSupported: bool, systemDefault: Locale, displayLocale: Locale)
      returns (threw: bool)
      modifies this
      ensures threw <==> SetupThrows(old(prefs), autofillSupported)
      ensures !threw ==> prefs == PreferencesAfterSetup(old(prefs), storedDeveloperMode, autofillSupported)
      ensures threw ==> prefs == SetupHides(old(prefs), autofillSupported)
      ensures languageSummary ==
                if ChangeLanguage in old(prefs) then Some(GetDisplayLanguage(GetCurrentLocale(applicationLocales, systemDefault), displayLocale))
                else old(languageSummary)
      ensures applicationLocales == old(applicationLocales)
    {
      if ChangeLanguage in prefs {
        languageSummary := Some(GetDisplayLanguage(GetCurrentLocale(applicationLocales, systemDefault), displayLocale));
      }
      ghost var before := prefs;
      HidePreference(ComposeUi);
      HidePreference(SignIn);
      HidePreference(PairSignIn);
      HidePreference(FirefoxAccount);
      threw := autofillSupported && Autofill !in prefs;
      if !autofillSupported {
        HidePreference(Autofill);
      }
      assert prefs == SetupHides(before, autofillSupported);
      if !threw {
        ghost var hidden := prefs;
        var isDeveloperMode := DeveloperMode(storedDeveloperMode);
        if DeveloperToolsCategory in prefs && !isDeveloperMode {
          prefs := prefs - {DeveloperToolsCategory};
        }
        assert prefs == if DeveloperToolsCategory in hidden && !isDeveloperMode then hidden - {DeveloperToolsCategory} else hidden;
        SetupStepsMeetSpec(before, storedDeveloperMode, autofillSupported);
      }
    }

    /**
     * The language dialog's `onLanguageSelected`: the chosen locale becomes
     * the only application locale, so `getCurrentLocale` yields it whatever
     * the system default, and its label, rendered in the display locale of
     * the moment, becomes the summary.
     */
    method OnLanguageSelected(locale: Locale, displayLocale: Locale)
      modifies this
      ensures applicationLocales == [locale] && prefs == old(prefs)
      ensures forall systemDefault :: GetCurrentLocale(applicationLocales, systemDefault) == locale
      ensures ChangeLanguage in prefs ==> languageSummary == Some(GetDisplayLanguage(locale, displayLocale))
      ensures ChangeLanguage !in prefs ==> languageSummary == old(languageSummary)
    {
      applicationLocales := [locale];
      if ChangeLanguage in prefs {
        languageSummary := Some(GetDisplayLanguage(locale, displayLocale));
      }
    }
  }
}

=== FILE: text.dfy ===
/** The string operations of Kotlin's standard library that the modelled code uses. */
module Text {

  /** `s.startsWith(prefix)`. */
  predicate StartsWith(s: string, prefix: string) {
    |prefix| <= |s| && s[..|prefix|] == prefix
  }

  /** `sub` occurs in `s` starting at position `i`. */
  predicate OccursAt(s: string, sub: string, i: int) {
    0 <= i && i + |sub| <= |s| && s[i..i + |sub|] == sub
  }

  /** `s.contains(sub)`: `sub` occurs at some position of `s`. */
  predicate Contains(s: string, sub: string) {
    exists i | 0 <= i <= |s| - |sub| :: OccursAt(s, sub, i)
  }

  /** Lower-case mapping of one character (ASCII letters only). */
  function LowerChar(c: char): char {
    if 'A' <= c <= 'Z' then (c as int + 32) as char else c
  }

  /** Upper-case mapping of one character (ASCII letters only). */
  function UpperChar(c: char): char {
    if 'a' <= c <= 'z' then (c as int - 32) as char else c
  }

  /** `s.lowercase()`, character by character. */
  function Lowercase(s: string): (r: string)
    ensures |r| == |s|
    ensures forall i :: 0 <= i < |s| ==> r[i] == LowerChar(s[i])
  {
    if s == [] then [] else [LowerChar(s[0])] + Lowercase(s[1..])
  }

  /** Two characters are equal when case is ignored (Kotlin `Char.equals(other, ignoreCase = true)`). */
  predicate CharEqualsIgnoreCase(a: char, b: char) {
    a == b || UpperChar(a) == UpperChar(b) || LowerChar(UpperChar(a)) == LowerChar(UpperChar(b))
  }

  /** `s.endsWith(suffix, ignoreCase = true)`. */
  predicate EndsWithIgnoreCase(s: string, suffix: string) {
    |suffix| <= |s| &&
    forall i :: 0 <= i < |suffix| ==> CharEqualsIgnoreCase(s[|s| - |suffix| + i], suffix[i])
  }

  /** For a suffix without upper-case letters, a case-insensitive match means the lower-cased tail of `s` is `suffix`. */
  lemma EndsWithIgnoreCaseLower(s: string, suffix: string)
    requires forall i :: 0 <= i < |suffix| ==> !('A' <= suffix[i] <= 'Z')
    ensures EndsWithIgnoreCase(s, suffix) <==>
              |suffix| <= |s| && Lowercase(s[|s| - |suffix|..]) == suffix
  {
    if |suffix| <= |s| {
      var tail := s[|s| - |suffix|..];
      if EndsWithIgnoreCase(s, suffix) {
        forall i | 0 <= i < |suffix| ensures Lowercase(tail)[i] == suffix[i] {
          assert tail[i] == s[|s| - |suffix| + i];
        }
      }
      if Lowercase(tail) == suffix {
        forall i | 0 <= i < |suffix| ensures CharEqualsIgnoreCase(s[|s| - |suffix| + i], suffix[i]) {
          assert tail[i] == s[|s| - |suffix| + i];
        }
      }
    }
  }
}

=== FILE: wrappers.dfy ===
/** Option type standing in for Kotlin's nullable values. */
module Wrappers {

  datatype Option<+T> = None | Some(value: T) {

    /** The value, or `default` when absent (Kotlin's elvis operator `?:`). */
    function GetOr(default: T): (r: T)
      ensures Some? ==> r == value
      ensures None? ==> r == default
    {
      match this
      case Some(v) => v
      case None => default
    }
  }
}
